=== FILE: README.md ===
# strawberry-tornado decision logic in Dafny

This project models the decision logic of `strawberry_tornado`. That package is a Tornado
request handler. It serves a Strawberry GraphQL schema over HTTP (GET and POST) and over
WebSocket, for subscriptions. A WebSocket connection speaks one of two sub-protocols:
`graphql-transport-ws` (the newer one) or the legacy `graphql-ws`.

The model is functional. Requests, configuration and per-connection adapter state are
immutable datatypes. Every entry point is a pure function. What the code does to the outside
world is returned as a list of effects:
- `Socket.Effect` on the WebSocket side: close, start, cancel or await a task, ask a stream to
  close, hand a message to the protocol handler.
- `HttpMessages.HttpEvent` on the HTTP side: set a status, finish, call the executor.

The exceptions the modelled code itself raises or lets through are values (`Socket.Exception`):
`KeyError` from `dict.pop`, `AttributeError` from unset or missing slots, a JSON decoding
error, and an operation task's own exception re-raised on `await`. Library calls and callbacks
are total functions, so they raise only the errors the model gives them (see Left out).

Modules, leaf to root:
- `Wrappers`, `Text`, `JsonValues`: Option/Result, ASCII lower-casing, `str.startswith`, and
  substring search proved equal to its window definition.
- `ContextInjection`: the mapping / object / other shapes of a context, and the injection of
  the connection parameters.
- `Socket`, `Operations`: effects, tasks, and the operation table. The table has the `tasks`
  and `subscriptions` maps plus the insertion order of the subscription keys, which is the
  order Python iterates in.
- `LegacyAdapter` (`graphql_ws.py`) and `TransportAdapter` (`graphql_transport_ws.py`).
- `Settings` (`initialize`), `WsResolver` (`_ws_resolver.py`), `HttpResolver`
  (`_http_resolver.py`), `BaseResolver` (`_base_resolver.py`) and `Handler` (`handler.py`).

Several behaviours of the code are modelled exactly as written:
- Legacy `cleanup_operation` uses `dict.pop` without a default. Stopping an unknown id raises
  `KeyError` rather than being ignored. An id that has a task but no stream loses its task and
  then raises.
- Legacy `cleanup` cancels the keep-alive task but never the init-timeout watcher.
- HTTP `get` has no `return` after it finishes an executed query. It therefore goes on to set
  404 and call `finish` a second time (`HttpResolver.GetQueryFallsThrough`).
- A connection with no negotiated sub-protocol is closed with 4400. The 4406 branch cannot be
  reached from negotiation (`WsResolver.NegotiatedNameIsAcceptable`).
- The configured `ws_subscription_protocols` tuple is stored but never read
  (`WsResolver.ProtocolTupleNeverConsulted`).
- `prepare` cannot build the WebSocket resolver (see Findings). The rest of the model uses
  the intended `prepare`, so the WebSocket path can be studied at all.

## Model

| member | source | states |
|---|---|---|
| Text.ContainsIffOccurs | strawberry_tornado/_http_resolver.py:49-52 | the substring test used on the Accept header holds exactly when some window of the header equals the pattern |
| Text.LowerEqualIffIgnoringCase | strawberry_tornado/handler.py:90 | comparing lower-cased strings is comparing them ignoring ASCII case, in both directions |
| Text.EmptyContainsNothing | strawberry_tornado/_http_resolver.py:50 | the empty default header contains no non-empty pattern |
| ContextInjection.Inject | strawberry_tornado/_ws_protocols/graphql_ws.py:50-55 | a dict gains `connection_params` with the other keys and values kept; an object with that attribute has it overwritten and keeps every other attribute; an object without it, and any other value, are returned unchanged |
| ContextInjection.InjectFixedPoints | strawberry_tornado/_ws_protocols/graphql_ws.py:50-55 | every injected context carries the parameters, and a context that already carries them is left unchanged |
| ContextInjection.InjectIdempotent | strawberry_tornado/_ws_protocols/graphql_ws.py:108-112 | applying the injection a second time changes nothing |
| LegacyAdapter.New | strawberry_tornado/_ws_protocols/graphql_ws.py:26-46 | the configuration is stored unchanged; the init flag starts false; there is no timeout task. The state the base `__init__` sets up is assumed: no keep-alive task, both maps empty, parameters None |
| LegacyAdapter.GetContext | strawberry_tornado/_ws_protocols/graphql_ws.py:49-55 | the provided context comes back carrying the connection parameters. A dict gains only that key and keeps every other value. An object with the attribute has it set and keeps its other attributes. An object without it, and any other value, come back unchanged |
| LegacyAdapter.StartContextIsGetContext | strawberry_tornado/_ws_protocols/graphql_ws.py:107-112 | the second injection in `handle_start` yields the same value `get_context` already produced. The source discards that value: line 113 passes only the message on, so lines 109-112 matter only through in-place mutation, which the model does not have (see Left out) |
| LegacyAdapter.Close | strawberry_tornado/_ws_protocols/graphql_ws.py:65-67 | exactly one transport close; an omitted code becomes 1000; the reason is passed through unchanged (None when omitted) |
| LegacyAdapter.HandleRequest | strawberry_tornado/_ws_protocols/graphql_ws.py:69-71 | no state change, no effect, no exception |
| LegacyAdapter.WatchInitTimeout | strawberry_tornado/_ws_protocols/graphql_ws.py:73-76 | the watcher task is started once and stored, and nothing else changes |
| LegacyAdapter.HandleConnectionInit | strawberry_tornado/_ws_protocols/graphql_ws.py:78-81 | the init flag becomes true and nothing else changes |
| LegacyAdapter.HandleInitTimeout | strawberry_tornado/_ws_protocols/graphql_ws.py:115-126 | when the timer fires, there is no effect if init was received; otherwise exactly one close with 4408 and "Connection initialisation timeout" |
| LegacyAdapter.CleanupOperation | strawberry_tornado/_ws_protocols/graphql_ws.py:83-94 | an id missing from `tasks` raises KeyError with nothing changed. Otherwise its task leaves `tasks` and is cancelled, then awaited. If that task had already ended with an exception other than cancellation, the await re-raises it and `subscriptions` is untouched. Otherwise, with a stream, the stream leaves `subscriptions` and is asked to close; without one, KeyError is raised after the task is gone. In both raising cases the cancel and await are the only effects. Other ids are untouched |
| LegacyAdapter.CleanupEach | strawberry_tornado/_ws_protocols/graphql_ws.py:103-104 | running `cleanup_operation` over a key list raises nothing exactly when the ids are distinct and each has a stream and a task that had not already failed. Then exactly those ids leave both maps and each one's task is cancelled. Only operation tasks are ever cancelled |
| LegacyAdapter.Cleanup | strawberry_tornado/_ws_protocols/graphql_ws.py:96-104 | the keep-alive task is cancelled exactly when there is one, and its cancel and await, whose exceptions are all suppressed, come before any per-operation effect. The init-timeout task is never cancelled, and its field and the init flag are unchanged. When the key order lists each subscription once, cleanup raises nothing exactly when every subscription has a task that had not already failed, and then leaves `subscriptions` empty |
| LegacyAdapter.CleanupEmptiesTable | strawberry_tornado/_ws_protocols/graphql_ws.py:96-104 | when both maps hold the same ids, cleanup raises nothing and empties both unless some operation task had already failed, in which case it raises |
| LegacyAdapter.InitReceivedNeverReset | strawberry_tornado/_ws_protocols/graphql_ws.py:79-81 | once the init flag is true, no sequence of adapter calls makes it false |
| LegacyAdapter.InitReceivedOnlyByInit | strawberry_tornado/_ws_protocols/graphql_ws.py:46 | starting false, the flag stays false through any call sequence without an init message |
| LegacyAdapter.TimerAfterInitIsSilent | strawberry_tornado/_ws_protocols/graphql_ws.py:116-121 | if init arrives before the timer fires, the timer closes nothing, whatever happens in between |
| LegacyAdapter.TimerWithoutInitClosesOnce | strawberry_tornado/_ws_protocols/graphql_ws.py:116-126 | a connection that never sends init gets exactly one 4408 close when the timer fires |
| LegacyAdapter.RunPreservesValid | strawberry_tornado/_ws_protocols/graphql_ws.py:84-104 | every call sequence keeps the key order listing exactly the subscription ids, each once |
| TransportAdapter.New | strawberry_tornado/_ws_protocols/graphql_transport_ws.py:32-52 | the keep-alive flag and interval are stored unchanged and the alive event is set. The state the base `__init__` sets up is assumed: no timeout task, empty maps, parameters None |
| TransportAdapter.GetContext | strawberry_tornado/_ws_protocols/graphql_transport_ws.py:55-61 | the same injection as the legacy adapter: a dict gains the key and keeps its other values; an object with the attribute has it set and keeps its other attributes; an object without it, and any other value, come back unchanged |
| TransportAdapter.Close | strawberry_tornado/_ws_protocols/graphql_transport_ws.py:71-73 | exactly one transport close carrying the given code and reason |
| TransportAdapter.HandleRequest | strawberry_tornado/_ws_protocols/graphql_transport_ws.py:75-77 | no state change, no effect, no exception |
| TransportAdapter.WatchInitTimeout | strawberry_tornado/_ws_protocols/graphql_transport_ws.py:79-81 | exactly one watcher task is started, and it is stored in the timeout-task field |
| TransportAdapter.CleanupCalls | strawberry_tornado/_ws_protocols/graphql_transport_ws.py:84-86 | one `cleanup_operation` call per id, in snapshot order |
| TransportAdapter.CallsUntilRaise | strawberry_tornado/_ws_protocols/graphql_transport_ws.py:85-86 | the calls follow the snapshot order and stop right after the first id whose call raises; nothing raises exactly when no id raises, and then every id gets its call |
| TransportAdapter.Cleanup | strawberry_tornado/_ws_protocols/graphql_transport_ws.py:83-87 | `cleanup_operation` is called once per subscription id of the snapshot, in order. If none raises, `reap_completed_tasks` is called once, last. If one raises, the loop ends at that call and nothing is reaped |
| TransportAdapter.PerformRemoves | strawberry_tornado/_ws_protocols/graphql_transport_ws.py:84-86 | if the base `cleanup_operation` removes its id, the calls for a list of ids remove exactly those ids |
| TransportAdapter.CleanupEmptiesSubscriptions | strawberry_tornado/_ws_protocols/graphql_transport_ws.py:83-87 | under that assumption about the base method, a `cleanup` that raises nothing leaves no subscription behind |
| Settings.Initialize | strawberry_tornado/handler.py:60-77 | passed keywords are stored unchanged. Defaults: GraphiQL on, queries via GET allowed, keep-alive off with interval 1, protocols (transport-ws, ws), init wait 60 seconds |
| WsResolver.SelectSubprotocol | strawberry_tornado/_ws_resolver.py:72-78 | `graphql-transport-ws` whenever offered; `graphql-ws` exactly when only it is offered; None exactly when neither is offered; any result is one of the offered names |
| WsResolver.SelectionIgnoresOrder | strawberry_tornado/_ws_resolver.py:74-77 | two offers naming the same protocols negotiate the same, whatever the client's order |
| WsResolver.SelectionExamples | strawberry_tornado/_ws_resolver.py:72-78 | the offers [], [ws], [transport-ws] and [ws, transport-ws] negotiate none, legacy, newer and newer |
| WsResolver.AdapterFor | strawberry_tornado/_ws_resolver.py:88-91 | an adapter exists exactly for the two known names; each name gets its own variant, built from the handler's configuration |
| WsResolver.Open | strawberry_tornado/_ws_resolver.py:81-113 | close codes in strict priority: a failed handshake closes with (4500, "Internal server error.") and builds nothing. Otherwise no selection closes with (4400, "Bad request."). Otherwise (4406, "Subprotocol not acceptable.") happens exactly for an unknown name. An adapter is built exactly for a known name and matches its variant. It is a fresh adapter built from the application's debug setting (False when unset), the init wait, keep-alive and interval, with the watcher started and stored |
| WsResolver.FailedHandshakeIgnoresSubprotocol | strawberry_tornado/_ws_resolver.py:82-83 | when the handshake failed, the result does not depend on the selected sub-protocol |
| WsResolver.NegotiatedNameIsAcceptable | strawberry_tornado/_ws_resolver.py:88-94 | no result of negotiation leads to the 4406 close |
| WsResolver.ProtocolTupleNeverConsulted | strawberry_tornado/handler.py:76 | changing `ws_subscription_protocols` never changes what `open` does |
| WsResolver.OpenArmsWatcherOnce | strawberry_tornado/_ws_resolver.py:111-112 | a successful open starts the init-timeout watcher exactly once, and the adapter records it |
| WsResolver.OnMessage | strawberry_tornado/_ws_resolver.py:119-122 | a decoding failure escapes with no dispatch. Otherwise the decoded value is handed to the adapter exactly once. With no adapter (open closed early), reading the unset slot raises |
| WsResolver.OnClose | strawberry_tornado/_ws_resolver.py:115-117 | cleanup is started as a background task and never awaited; with no adapter, reading the unset slot raises |
| HttpMessages.OrDefault | strawberry_tornado/_http_resolver.py:115 | a missing or empty method falls back to the default; any other method is kept |
| HttpResolver.ShouldRenderGraphiql | strawberry_tornado/_http_resolver.py:46-52 | false whenever GraphiQL is disabled; otherwise true exactly when the Accept header (empty when missing) contains `text/html` or `*/*` somewhere |
| HttpResolver.NoAcceptNoGraphiql | strawberry_tornado/_http_resolver.py:50 | a request with no Accept header never gets GraphiQL |
| HttpResolver.KeepPresent | strawberry_tornado/_http_resolver.py:137-138 | a name is kept exactly when its argument is present, with its value unchanged |
| HttpResolver.DecodeQueryData | strawberry_tornado/_http_resolver.py:135-138 | only `query`, `variables` and `operationName` can appear; each appears exactly when its query argument is present, with its value kept |
| HttpResolver.OtherContentTypeIsEmpty | strawberry_tornado/_http_resolver.py:124-132 | a content type with neither prefix gives an empty object, whatever the decoder, body, form fields and files |
| HttpResolver.JsonBranchIgnoresForm | strawberry_tornado/_http_resolver.py:124-126 | a JSON request decodes its whole body; the form fields and files play no part |
| HttpResolver.MultipartBranchIgnoresBody | strawberry_tornado/_http_resolver.py:127-131 | a multipart request does not depend on the raw body; missing `operations` and `map` fields both decode `{}`; a failing `operations` decode makes the whole decode fail |
| HttpResolver.DecodeRequestData | strawberry_tornado/_http_resolver.py:123-132 | a JSON request decodes its body. Any other content type that is not multipart gives an empty object and never fails. A multipart request succeeds exactly when both of its form fields decode |
| HttpResolver.PrefixesExclusive | strawberry_tornado/_http_resolver.py:125-127 | no content type has both prefixes, so checking JSON first decides nothing extra |
| HttpResolver.Execute | strawberry_tornado/_http_resolver.py:94-120 | the executor is called once with the providers' context and root value and the given operation restriction. A disallowed kind sets 400 with the method-specific reason and yields no body. Otherwise the body is the encoded processed result. Execute never finishes the response itself |
| HttpResolver.GetAllowedOperations | strawberry_tornado/_http_resolver.py:67-71 | no operation kind is allowed when queries via GET are disabled. Otherwise the library's kinds for the request method, with a missing or empty method read as `GET` |
| HttpResolver.GetGraphiqlFirst | strawberry_tornado/_http_resolver.py:56-58 | when GraphiQL is rendered, the page is the only response, even if query arguments are present |
| HttpResolver.GetWithoutArgumentsIsNotFound | strawberry_tornado/_http_resolver.py:60-76 | no GraphiQL and no arguments gives 404 and one finish |
| HttpResolver.GetMissingQuery | strawberry_tornado/_http_resolver.py:60-66 | arguments without a query give 400 "No GraphQL query found in the request" and nothing is executed |
| HttpResolver.AnswerQuery | strawberry_tornado/_http_resolver.py:60-73 | a missing query returns 400 with "No GraphQL query found in the request". Otherwise the branch does not return: it calls the executor once with the parsed request under the GET restriction and finishes exactly once, with the executor's response |
| HttpResolver.Get | strawberry_tornado/_http_resolver.py:54-76 | GraphiQL is one finish with the page. Without arguments the answer is 404. With arguments, a returned branch is the whole answer, and a branch that falls through is followed by 404 and a finish. Every path ends with a finish |
| HttpResolver.GetQueryFallsThrough | strawberry_tornado/_http_resolver.py:60-76 | an executed GET query is exactly: the executor's events, a finish with its response, then 404 and a second finish |
| HttpResolver.GetSuccess | strawberry_tornado/_http_resolver.py:72-76 | a successful GET query sets no status before its first finish, which carries the encoded, processed result. Then 404 is set and `finish` is called again |
| HttpResolver.GetDisallowedOperation | strawberry_tornado/_http_resolver.py:72-76 | a disallowed operation kind in a GET sets 400 with the library's reason for the method and finishes with no body. Then 404 is set and `finish` is called again |
| HttpResolver.GetWithoutQueriesAllowsNothing | strawberry_tornado/_http_resolver.py:67-72 | with queries via GET disabled, every executor call made by GET carries the empty set of kinds |
| HttpResolver.Post | strawberry_tornado/_http_resolver.py:78-92 | a body that fails to decode gives 400 "Unable to parse request body as JSON."; a missing query gives 400 "No valid query was provided for the request.". Every path finishes exactly once, last, and the executor is never restricted |
| HttpResolver.PostDecodeErrorSkipsParser | strawberry_tornado/_http_resolver.py:80-84 | after a JSON decoding error, the response does not depend on the request parser: the query is never parsed |
| HttpResolver.PostSuccess | strawberry_tornado/_http_resolver.py:91-92 | a successful POST sets no status (it stays 200) and finishes with the encoded, processed result |
| HttpResolver.PostDisallowedOperation | strawberry_tornado/_http_resolver.py:114-116 | a disallowed operation kind sets 400 with the library's reason for the method and finishes with no body |
| Handler.IsWs | strawberry_tornado/handler.py:88-90 | true exactly when an Upgrade header is present and equals `websocket` ignoring ASCII case |
| Handler.IsWsExamples | strawberry_tornado/handler.py:90 | `WebSocket` counts as an upgrade; a missing header or `websockets` does not |
| Handler.Prepare | strawberry_tornado/handler.py:79-86 | the intended `prepare` (see Findings): the WebSocket resolver is built exactly for upgrade requests; either resolver holds exactly the handler's four callables, and the WebSocket one starts with no adapter |
| BaseResolver.FirstUnstorable | strawberry_tornado/_base_resolver.py:16-22 | the dataclass `__init__` raises at the first field the instance cannot store, and only there: every earlier field is stored, and nothing raises exactly when every field can be stored |
| Handler.PrepareAsWritten | strawberry_tornado/handler.py:79-86 | `prepare` as written: an HTTP request gets the HTTP resolver with the handler's callables; every upgrade request raises `AttributeError` on `context_method`, because the slot-only WebSocket resolver (`_ws_resolver.py` line 69, base line 18) has nowhere to store it |
| Handler.PrepareAsWrittenRejectsUpgrades | strawberry_tornado/_ws_resolver.py:67-69 | the two `prepare` definitions agree on every non-upgrade request and differ on every upgrade request, for example one with `Upgrade: websocket` |
| Handler.Get | strawberry_tornado/handler.py:92-99 | upgrade requests go to the WebSocket handshake, and only they do; any other request gets exactly the HTTP resolver's `get`, or the base no-op on a WebSocket resolver |
| Handler.Post | strawberry_tornado/handler.py:101-103 | always forwarded to the resolver: exactly the HTTP resolver's `post` (one finish), or the base no-op on a WebSocket resolver |
| Handler.SelectSubprotocol | strawberry_tornado/handler.py:105-107 | forwarded unchanged to the WebSocket resolver's negotiation; the HTTP resolver accepts nothing |
| Handler.Open | strawberry_tornado/handler.py:109-111 | forwarded to the WebSocket resolver, whose adapter slot takes the result; a no-op on the HTTP resolver |
| Handler.OnClose | strawberry_tornado/handler.py:113-115 | forwarded unchanged to the WebSocket resolver; a no-op on the HTTP resolver |
| Handler.OnMessage | strawberry_tornado/handler.py:117-119 | forwarded with the resolver's own decoder; a no-op on the HTTP resolver |
| Handler.DefaultContextUntouched | strawberry_tornado/handler.py:121-122 | the default context is None, and both adapters' injection leaves it unchanged |
| Handler.PrepareAndGetAgree | strawberry_tornado/handler.py:79-99 | the resolver the intended `prepare` builds and the routing of `get` always agree on whether a request is an upgrade. With `prepare` as written, an upgrade request never reaches `get` |
| Handler.HttpResolverIgnoresSocketEvents | strawberry_tornado/_base_resolver.py:30-40 | on the HTTP resolver: `select_subprotocol` gives None, and `open`, `on_close` and `on_message` have no effect |
| Handler.WsResolverIgnoresHttp | strawberry_tornado/_base_resolver.py:24-28 | on the WebSocket resolver, `get` for a non-upgrade request and `post` have no effect |
| Handler.AdaptersInjectAlike | strawberry_tornado/_ws_protocols/graphql_transport_ws.py:55-61 | with the same connection parameters, the two adapters inject any context identically |

## Left out

- asyncio scheduling is not modelled: `create_task`, `sleep`, cancellation and awaiting. Starting, cancelling and awaiting a task are recorded as effects. The timer firing is an input (`LegacyAdapter.InitTimerFired`), so the wait duration is stored but never elapses. Whether an awaited operation task had already ended with an exception is an input too: the `failed` set of the legacy cleanup calls.
- Several parts of the library base handlers are not in the model: message dispatch, the body of `handle_start`, the keep-alive loop, and the base `cleanup_operation` and `reap_completed_tasks` of the transport protocol. The state the base `__init__` sets up is assumed, not derived: no keep-alive or timeout task, empty maps, connection parameters None. Whether a keep-alive task exists is a state field, and connection parameters are a state field the base handler would fill in.
- Contexts are values. Python injects into the provider's own dict or object in place, so every holder of that object sees the parameters. The model returns a new value instead and has no aliasing. This matters for `handle_start`: the context it re-injects at `graphql_ws.py` lines 108-112 is never passed on, so it has an effect only through that mutation, which the model does not capture.
- LegacyAdapter.HandleConnectionInit: only the flag is modelled. What the base handler then does (store parameters, acknowledge, start the keep-alive task) is library code not in this model.
- TransportAdapter.Cleanup: the per-operation effect of cleanup is stated only under the assumption that the base `cleanup_operation` removes its id (`RemovesSubscription`), because that method is library code. Which calls raise is a parameter that depends on the id alone, not on the table at the time of the call.
- `schema.execute`, `parse_request_data`, `process_result`, `OperationType.from_http`, `InvalidOperationTypeError.as_http_error_reason`, `replace_placeholders_with_files` and `get_graphiql_html` are library calls. They appear as function fields of `HttpResolver.Library` and are otherwise unconstrained. As total functions, they are assumed to raise nothing except two cases. `parse_request_data` raises `MissingQueryError`, modelled as `None`. `schema.execute` raises `InvalidOperationTypeError`, modelled as `Failure`. Any other exception they could raise is not modelled.
- The context and root-value providers and the JSON encoder are total functions, so they are assumed never to raise. The JSON decoder can only fail with a JSON decoding error.
- ContextInjection.Inject: setting `connection_params` on an object that has it is assumed to succeed. In Python, `setattr` raises when the attribute is a read-only property or the object is a frozen dataclass; that exception is not modelled.
- The JSON encoder and decoder are function fields of `BaseResolver.Callables`. A decoder result of `None` is a JSON decoding error. Any other exception a decoder or parser might raise is not modelled.
- Context and root-value providers are modelled by the values they return. The concurrent `asyncio.gather` is not modelled: both values are simply available before the executor call.
- `send_json`, the `write_msg` callback and `get_root_value` on both adapters are plain forwards to a callback. They are not modelled separately.
- The debug pretty-printing in `__execute` writes to stdout and is not modelled. The `schema` handle is not modelled: it is only passed through.
- Lower-casing of the Upgrade header covers ASCII letters only. Python's Unicode case mappings are not modelled, for example the Kelvin sign lower-casing to `k`.
- What Tornado does with the exception `prepare` raises on an upgrade request (an error response) is not modelled; `Handler.PrepareAsWritten` stops at the raise.
- Tornado internals are not modelled: header storage (taken as case-insensitive, keyed by lower-case name), argument decoding and whitespace stripping, `finish` raising when called twice, and the upgrade handshake itself (`WebSocketHandshake`).
- `generator.aclose()` is called without `await`, so the model records only that closing was requested (`StreamCloseRequested`). It does not claim the stream is closed.
- Keep-alive interval and init wait are `real` seconds. Float rounding and `timedelta` arithmetic are not modelled.
- The `RequestResolver`, `GqlProtocol` and `AdapterParams` typing declarations have no behaviour. `setup.py` is packaging metadata.

## Findings

| source | as written | input that shows it | evidently intended | confidence | as-written member | corrected member |
|---|---|---|---|---|---|---|
| strawberry_tornado/handler.py:80-86 | `prepare` builds `GQLWsResolver(context_method=…, …)`. The dataclass `__init__` it inherits assigns `self.context_method`, but the class and its base declare `__slots__` (`("__protocol",)` and `()`), so instances have no `__dict__` and no slot for that field. The assignment raises `AttributeError` | any request with header `Upgrade: websocket` | build the WebSocket resolver holding the four callables, as is done for HTTP | high; not executed | Handler.PrepareAsWritten (shown by Handler.PrepareAsWrittenRejectsUpgrades) | Handler.Prepare (used by Handler.PrepareAndGetAgree) |

=== FILE: base_resolver.dfy ===
/** What every resolver holds: the four callables injected by the handler. The base class is a
    dataclass over those four fields that also declares `__slots__`, which decides which of its
    subclasses can be constructed at all. */
module BaseResolver {
  import opened Wrappers
  import opened JsonValues
  import opened ContextInjection

  /** The context provider, root-value provider, JSON encoder and JSON decoder (a decoder
      result of `None` stands for a JSON decoding error). */
  datatype Callables = Callables(
    contextMethod: () -> Context,
    rootValueMethod: () -> Json,
    jsonEncoder: Json -> string,
    jsonDecoder: string -> Option<Json>)

  /** The two classes `prepare` instantiates. */
  datatype ResolverClass = HttpResolverClass | WsResolverClass

  /** Where an instance can store attributes. `GQLHttpResolver` declares no `__slots__`, so its
      instances get a `__dict__`. The base resolver declares `__slots__ = ()` and the WebSocket
      resolver `("__protocol",)`, so a WebSocket resolver instance has no `__dict__` and only
      the name-mangled slot `_GQLWsResolver__protocol`. */
  predicate CanStore(c: ResolverClass, name: string) {
    c.HttpResolverClass? || name == "_GQLWsResolver__protocol"
  }

  /** The fields the base dataclass `__init__` assigns, in declaration order. */
  const InitFields: seq<string> := ["context_method", "root_value_method", "json_encoder", "json_decoder"]

  /** The first of `fields` that an instance of `c` cannot store: the assignment that raises. */
  function FirstUnstorable(c: ResolverClass, fields: seq<string>): (r: Option<nat>)
    ensures r.None? <==> forall i :: 0 <= i < |fields| ==> CanStore(c, fields[i])
    ensures r.Some? ==> r.value < |fields| && !CanStore(c, fields[r.value])
    ensures r.Some? ==> forall i :: 0 <= i < r.value ==> CanStore(c, fields[i])
    decreases |fields|
  {
    if |fields| == 0 then None
    else if !CanStore(c, fields[0]) then Some(0)
    else match FirstUnstorable(c, fields[1..])
      case None => None
      case Some(i) => Some(i + 1)
  }
}

=== FILE: context.dfy ===
/** The execution context handed to the executor and how an adapter injects the
    connection's initialisation parameters into it. */
module ContextInjection {
  import opened JsonValues

  /** The well-known key / attribute name that receives the connection parameters. */
  const ConnectionParamsKey: string := "connection_params"

  /** A context value as the embedding application returns it: a mapping, an object
      with named attributes, Python's `None`, or any other value with no such attribute. */
  datatype Context =
    | DictContext(entries: map<string, Json>)
    | ObjectContext(attrs: map<string, Json>)
    | NoneContext
    | OpaqueContext(tag: nat)

  /** Injects `params`: a mapping gets the key, an object that already has the
      attribute gets it overwritten, anything else is returned unchanged. */
  function Inject(ctx: Context, params: Json): (r: Context)
    ensures r.DictContext? <==> ctx.DictContext?
    ensures r.ObjectContext? <==> ctx.ObjectContext?
    ensures ctx.DictContext? ==>
      && ConnectionParamsKey in r.entries && r.entries[ConnectionParamsKey] == params
      && r.entries.Keys == ctx.entries.Keys + {ConnectionParamsKey}
      && forall k :: k in ctx.entries && k != ConnectionParamsKey ==> r.entries[k] == ctx.entries[k]
    ensures ctx.ObjectContext? && ConnectionParamsKey in ctx.attrs ==>
      && r.attrs.Keys == ctx.attrs.Keys && r.attrs[ConnectionParamsKey] == params
      && forall k :: k in ctx.attrs && k != ConnectionParamsKey ==> r.attrs[k] == ctx.attrs[k]
    ensures ctx.ObjectContext? && ConnectionParamsKey !in ctx.attrs ==> r == ctx
    ensures !ctx.DictContext? && !ctx.ObjectContext? ==> r == ctx
  {
    match ctx
    case DictContext(entries) => DictContext(entries[ConnectionParamsKey := params])
    case ObjectContext(attrs) =>
      if ConnectionParamsKey in attrs then ObjectContext(attrs[ConnectionParamsKey := params]) else ctx
    case _ => ctx
  }

  /** After injection the context carries `params` wherever the context has room for them. */
  ghost predicate Carries(ctx: Context, params: Json) {
    match ctx
    case DictContext(entries) => ConnectionParamsKey in entries && entries[ConnectionParamsKey] == params
    case ObjectContext(attrs) => ConnectionParamsKey in attrs ==> attrs[ConnectionParamsKey] == params
    case _ => true
  }

  /** A context that already carries the parameters is a fixed point of injection,
      and every injected context carries them. */
  lemma InjectFixedPoints(ctx: Context, params: Json)
    ensures Carries(Inject(ctx, params), params)
    ensures Carries(ctx, params) ==> Inject(ctx, params) == ctx
  {
    if ctx.DictContext? && Carries(ctx, params) {
      assert ctx.entries[ConnectionParamsKey := params] == ctx.entries;
    }
    if ctx.ObjectContext? && Carries(ctx, params) && ConnectionParamsKey in ctx.attrs {
      assert ctx.attrs[ConnectionParamsKey := params] == ctx.attrs;
    }
  }

  /** Re-applying the injection with the same parameters changes nothing further. */
  lemma {:induction false} InjectIdempotent(ctx: Context, params: Json)
    ensures Inject(Inject(ctx, params), params) == Inject(ctx, params)
  {
    InjectFixedPoints(ctx, params);
    InjectFixedPoints(Inject(ctx, params), params);
  }
}

=== FILE: graphql_transport_ws.dfy ===
/** The adapter for the `graphql-transport-ws` sub-protocol. It stores its configuration,
    injects connection parameters into the context, and orders cleanup; per-operation
    cleanup, task reaping and message handling are the library base handler's. */
module TransportAdapter {
  import opened Wrappers
  import opened JsonValues
  import opened Socket
  import opened Operations
  import opened ContextInjection

  datatype State = State(
    debug: bool,
    initWaitSeconds: real,
    keepAlive: bool,
    keepAliveInterval: real,
    /** The `_is_alive` event. */
    isAlive: bool,
    connectionParams: Json,
    initTimeoutTask: Option<Task>,
    table: Table)

  /** The constructor: the keep-alive flag and interval kept as given, the alive event set. */
  function New(debug: bool, initWaitSeconds: real, keepAlive: bool, keepAliveInterval: real): (s: State)
    ensures s.keepAlive == keepAlive && s.keepAliveInterval == keepAliveInterval
    ensures s.debug == debug && s.initWaitSeconds == initWaitSeconds
    ensures s.isAlive && s.initTimeoutTask.None? && s.connectionParams == JNull
    ensures s.table.tasks == map[] && s.table.subscriptions == map[] && Valid(s.table)
  {
    State(debug, initWaitSeconds, keepAlive, keepAliveInterval, true, JNull, None, EmptyTable())
  }

  /** `get_context`: the same injection the legacy adapter applies. */
  function GetContext(s: State, provided: Context): (r: Context)
    ensures Carries(r, s.connectionParams)
    ensures provided.DictContext? ==>
      && r.DictContext? && r.entries.Keys == provided.entries.Keys + {ConnectionParamsKey}
      && forall k :: k in provided.entries && k != ConnectionParamsKey ==> r.entries[k] == provided.entries[k]
    ensures provided.ObjectContext? && ConnectionParamsKey in provided.attrs ==>
      && r.ObjectContext? && r.attrs.Keys == provided.attrs.Keys
      && forall k :: k in provided.attrs && k != ConnectionParamsKey ==> r.attrs[k] == provided.attrs[k]
    ensures provided.ObjectContext? && ConnectionParamsKey !in provided.attrs ==> r == provided
    ensures !provided.DictContext? && !provided.ObjectContext? ==> r == provided
  {
    InjectFixedPoints(provided, s.connectionParams);
    Inject(provided, s.connectionParams)
  }

  /** `close(code, reason=None)`: both go to the transport's close callback unchanged. */
  function Close(code: int, reason: Option<string>): (effects: seq<Effect>)
    ensures |effects| == 1 && effects[0].CloseSocket?
    ensures effects[0].code == code && effects[0].reason == reason
  {
    [CloseSocket(code, reason)]
  }

  /** `handle_request`: nothing happens. */
  function HandleRequest(s: State): (o: Outcome<State>)
    ensures o.state == s && o.effects == [] && o.raised.None?
  {
    Outcome(s, [], None)
  }

  /** `watch_pre_init_connection_timeout`: spawns exactly one watcher and stores it. */
  function WatchInitTimeout(s: State): (o: Outcome<State>)
    ensures o.state == s.(initTimeoutTask := Some(InitTimeoutTask))
    ensures Count(o.effects, StartTask(InitTimeoutTask)) == 1 && |o.effects| == 1
  {
    Outcome(s.(initTimeoutTask := Some(InitTimeoutTask)), [StartTask(InitTimeoutTask)], None)
  }

  /** The calls `cleanup` makes on the base handler. */
  datatype BaseCall = CleanupOperationCall(id: OperationId) | ReapCompletedTasksCall

  /** One `cleanup_operation` call per id, in the order given. */
  function CleanupCalls(ids: seq<OperationId>): (calls: seq<BaseCall>)
    ensures |calls| == |ids|
    ensures forall i :: 0 <= i < |ids| ==> calls[i] == CleanupOperationCall(ids[i])
    decreases |ids|
  {
    if |ids| == 0 then [] else [CleanupOperationCall(ids[0])] + CleanupCalls(ids[1..])
  }

  /** The calls `cleanup` made, and the id whose `cleanup_operation` raised, if one did. */
  datatype CleanupRun = CleanupRun(calls: seq<BaseCall>, raisedAt: Option<OperationId>)

  /** `cleanup_operation` over `ids` in order, stopping after the first call that raises.
      `raises` says for which ids the base method raises. */
  function CallsUntilRaise(ids: seq<OperationId>, raises: OperationId -> bool): (r: CleanupRun)
    ensures |r.calls| <= |ids|
    ensures forall i :: 0 <= i < |r.calls| ==> r.calls[i] == CleanupOperationCall(ids[i])
    ensures r.raisedAt.None? <==> forall i :: 0 <= i < |ids| ==> !raises(ids[i])
    ensures r.raisedAt.None? ==> r.calls == CleanupCalls(ids)
    ensures r.raisedAt.Some? ==>
      && |r.calls| > 0 && r.raisedAt.value == ids[|r.calls| - 1] && raises(r.raisedAt.value)
      && forall i :: 0 <= i < |r.calls| - 1 ==> !raises(ids[i])
    decreases |ids|
  {
    if |ids| == 0 then CleanupRun([], None)
    else if raises(ids[0]) then CleanupRun([CleanupOperationCall(ids[0])], Some(ids[0]))
    else
      var rest := CallsUntilRaise(ids[1..], raises);
      assert forall i :: 0 < i < |ids| ==> ids[i] == ids[1..][i - 1];
      CleanupRun([CleanupOperationCall(ids[0])] + rest.calls, rest.raisedAt)
  }

  /** `cleanup`: `cleanup_operation` once per id of the key snapshot taken before any removal,
      then `reap_completed_tasks` exactly once, last. A raising `cleanup_operation` ends the
      loop and the exception escapes, so nothing is reaped. */
  function Cleanup(s: State, raises: OperationId -> bool): (r: CleanupRun)
    ensures r.raisedAt.None? <==> forall i :: 0 <= i < |s.table.order| ==> !raises(s.table.order[i])
    ensures forall i :: 0 <= i < |r.calls| && i < |s.table.order| ==>
      r.calls[i] == CleanupOperationCall(s.table.order[i])
    ensures r.raisedAt.Some? ==>
      && ReapCompletedTasksCall !in r.calls
      && 0 < |r.calls| <= |s.table.order| && r.calls[|r.calls| - 1] == CleanupOperationCall(r.raisedAt.value)
      && raises(r.raisedAt.value) && forall i :: 0 <= i < |r.calls| - 1 ==> !raises(s.table.order[i])
    ensures r.raisedAt.None? ==>
      && |r.calls| == |s.table.order| + 1
      && r.calls[|r.calls| - 1] == ReapCompletedTasksCall
      && ReapCompletedTasksCall !in r.calls[..|r.calls| - 1]
      && (forall i :: 0 <= i < |s.table.order| ==> r.calls[i] == CleanupOperationCall(s.table.order[i]))
      && (Valid(s.table) ==> forall id :: id in s.table.subscriptions <==> CleanupOperationCall(id) in r.calls)
  {
    var ops := CallsUntilRaise(s.table.order, raises);
    if ops.raisedAt.Some? then ops
    else
      var calls := ops.calls + [ReapCompletedTasksCall];
      assert calls[..|calls| - 1] == CleanupCalls(s.table.order);
      CleanupRun(calls, None)
  }

  /** The base `cleanup_operation` as far as this model relies on it: the id leaves the
      subscriptions map. */
  ghost predicate RemovesSubscription(cleanupOperation: (Table, OperationId) -> Table) {
    forall t: Table, id: OperationId :: cleanupOperation(t, id).subscriptions == t.subscriptions - {id}
  }

  /** The table after the base handler performs one call; reaping leaves the maps alone. */
  function Apply(t: Table, call: BaseCall, cleanupOperation: (Table, OperationId) -> Table): Table {
    match call
    case CleanupOperationCall(id) => cleanupOperation(t, id)
    case ReapCompletedTasksCall => t
  }

  /** The table after the base handler performs `calls` in order. */
  function Perform(t: Table, calls: seq<BaseCall>, cleanupOperation: (Table, OperationId) -> Table): Table
    decreases |calls|
  {
    if |calls| == 0 then t else Perform(Apply(t, calls[0], cleanupOperation), calls[1..], cleanupOperation)
  }

  /** Removing ids one by one leaves exactly the other subscriptions. */
  lemma {:induction false} PerformRemoves(t: Table, ids: seq<OperationId>,
                                          cleanupOperation: (Table, OperationId) -> Table)
    requires RemovesSubscription(cleanupOperation)
    ensures Perform(t, CleanupCalls(ids), cleanupOperation).subscriptions == t.subscriptions - Elements(ids)
    decreases |ids|
  {
    if |ids| > 0 {
      var calls := CleanupCalls(ids);
      var next := cleanupOperation(t, ids[0]);
      assert Apply(t, calls[0], cleanupOperation) == next;
      assert calls[1..] == CleanupCalls(ids[1..]);
      assert Perform(t, calls, cleanupOperation) == Perform(next, CleanupCalls(ids[1..]), cleanupOperation);
      PerformRemoves(next, ids[1..], cleanupOperation);
      assert next.subscriptions == t.subscriptions - {ids[0]};
      ElementsHeadTail(ids);
      RemoveInTwoSteps(t.subscriptions, {ids[0]}, Elements(ids[1..]));
    }
  }

  /** Removing two sets of keys one after the other removes their union. */
  lemma RemoveInTwoSteps(m: map<OperationId, nat>, a: set<OperationId>, b: set<OperationId>)
    ensures (m - a) - b == m - (a + b)
  {
    assert ((m - a) - b).Keys == (m - (a + b)).Keys;
  }

  /** Appending calls performs them after the earlier ones. */
  lemma {:induction false} PerformAppend(t: Table, a: seq<BaseCall>, b: seq<BaseCall>,
                                         cleanupOperation: (Table, OperationId) -> Table)
    ensures Perform(t, a + b, cleanupOperation) == Perform(Perform(t, a, cleanupOperation), b, cleanupOperation)
    decreases |a|
  {
    if |a| > 0 {
      assert (a + b)[0] == a[0];
      assert (a + b)[1..] == a[1..] + b;
      PerformAppend(Apply(t, a[0], cleanupOperation), a[1..], b, cleanupOperation);
    } else {
      assert a + b == b;
    }
  }

  /** Given that the base `cleanup_operation` removes the id it is called with, a `cleanup`
      that raises nothing leaves no subscription behind. */
  lemma CleanupEmptiesSubscriptions(s: State, raises: OperationId -> bool,
                                    cleanupOperation: (Table, OperationId) -> Table)
    requires Valid(s.table) && RemovesSubscription(cleanupOperation)
    ensures Cleanup(s, raises).raisedAt.None? ==>
      Perform(s.table, Cleanup(s, raises).calls, cleanupOperation).subscriptions == map[]
  {
    if Cleanup(s, raises).raisedAt.None? {
      assert Cleanup(s, raises).calls == CleanupCalls(s.table.order) + [ReapCompletedTasksCall];
      PerformRemoves(s.table, s.table.order, cleanupOperation);
      PerformAppend(s.table, CleanupCalls(s.table.order), [ReapCompletedTasksCall], cleanupOperation);
      var after := Perform(s.table, CleanupCalls(s.table.order), cleanupOperation);
      assert Perform(after, [ReapCompletedTasksCall], cleanupOperation) == after;
    }
  }
}

=== FILE: graphql_ws.dfy ===
/** The adapter for the legacy `graphql-ws` sub-protocol: its own init flag and
    init-timeout decision, context injection, and its overrides of per-operation
    cleanup and connection cleanup. Message dispatch, `handle_start` internals and the
    keep-alive loop belong to the library base handler and are not part of this model. */
module LegacyAdapter {
  import opened Wrappers
  import opened JsonValues
  import opened Socket
  import opened Operations
  import opened ContextInjection

  const InitTimeoutCode: int := 4408
  const InitTimeoutReason: string := "Connection initialisation timeout"
  const DefaultCloseCode: int := 1000

  datatype State = State(
    debug: bool,
    keepAlive: bool,
    keepAliveInterval: real,
    initWaitSeconds: real,
    /** Parameters the client sent with its init message (set by the base handler). */
    connectionParams: Json,
    initReceived: bool,
    initTimeoutTask: Option<Task>,
    /** Whether the base handler's `keep_alive_task` is set. */
    keepAliveRunning: bool,
    table: Table)

  /** The constructor: configuration stored, no init seen, no tasks, an empty table. */
  function New(debug: bool, initWaitSeconds: real, keepAlive: bool, keepAliveInterval: real): (s: State)
    ensures s.debug == debug && s.initWaitSeconds == initWaitSeconds
    ensures s.keepAlive == keepAlive && s.keepAliveInterval == keepAliveInterval
    ensures !s.initReceived && s.initTimeoutTask.None? && !s.keepAliveRunning
    ensures s.connectionParams == JNull
    ensures s.table.tasks == map[] && s.table.subscriptions == map[] && Valid(s.table)
  {
    State(debug, keepAlive, keepAliveInterval, initWaitSeconds, JNull, false, None, false, EmptyTable())
  }

  /** `get_context`: the provider's context with the connection parameters injected. */
  function GetContext(s: State, provided: Context): (r: Context)
    ensures Carries(r, s.connectionParams)
    ensures provided.DictContext? ==>
      && r.DictContext? && r.entries.Keys == provided.entries.Keys + {ConnectionParamsKey}
      && forall k :: k in provided.entries && k != ConnectionParamsKey ==> r.entries[k] == provided.entries[k]
    ensures provided.ObjectContext? && ConnectionParamsKey in provided.attrs ==>
      && r.ObjectContext? && r.attrs.Keys == provided.attrs.Keys
      && forall k :: k in provided.attrs && k != ConnectionParamsKey ==> r.attrs[k] == provided.attrs[k]
    ensures provided.ObjectContext? && ConnectionParamsKey !in provided.attrs ==> r == provided
    ensures !provided.DictContext? && !provided.ObjectContext? ==> r == provided
  {
    InjectFixedPoints(provided, s.connectionParams);
    Inject(provided, s.connectionParams)
  }

  /** The context `handle_start` builds: `get_context` followed by a second injection. */
  function StartContext(s: State, provided: Context): Context {
    Inject(GetContext(s, provided), s.connectionParams)
  }

  /** The second injection in `handle_start` changes nothing beyond what `get_context` did. */
  lemma StartContextIsGetContext(s: State, provided: Context)
    ensures StartContext(s, provided) == GetContext(s, provided)
  {
    InjectIdempotent(provided, s.connectionParams);
  }

  /** `close(code=1000, reason=None)`: an omitted code becomes 1000; code and reason go to the
      transport's close callback unchanged. */
  function Close(code: Option<int>, reason: Option<string>): (effects: seq<Effect>)
    ensures |effects| == 1 && effects[0].CloseSocket?
    ensures effects[0].code == (if code.Some? then code.value else DefaultCloseCode)
    ensures effects[0].reason == reason
  {
    [CloseSocket(code.GetOr(DefaultCloseCode), reason)]
  }

  /** `handle_request`: nothing happens. */
  function HandleRequest(s: State): (o: Outcome<State>)
    ensures o.state == s && o.effects == [] && o.raised.None?
  {
    Outcome(s, [], None)
  }

  /** `watch_pre_init_connection_timeout`: spawns the watcher and remembers it. */
  function WatchInitTimeout(s: State): (o: Outcome<State>)
    ensures o.state == s.(initTimeoutTask := Some(InitTimeoutTask))
    ensures o.effects == [StartTask(InitTimeoutTask)] && o.raised.None?
  {
    Outcome(s.(initTimeoutTask := Some(InitTimeoutTask)), [StartTask(InitTimeoutTask)], None)
  }

  /** `handle_connection_init`: the flag becomes true; what the base handler then does is not modelled. */
  function HandleConnectionInit(s: State): (o: Outcome<State>)
    ensures o.state.initReceived
    ensures o.state.(initReceived := s.initReceived) == s
  {
    Outcome(s.(initReceived := true), [], None)
  }

  /** `handle_connection_init_timeout` once its sleep is over: silent when init was received,
      otherwise one close with the init-timeout code and reason. */
  function HandleInitTimeout(s: State): (effects: seq<Effect>)
    ensures s.initReceived <==> effects == []
    ensures !s.initReceived ==> effects == Close(Some(InitTimeoutCode), Some(InitTimeoutReason))
  {
    if s.initReceived then [] else Close(Some(InitTimeoutCode), Some(InitTimeoutReason))
  }

  /** `cleanup_operation(id)`: pops the task (a missing id raises `KeyError` before anything
      changes), cancels and awaits it, then pops the stream (a missing id raises `KeyError`
      after the task is already gone) and asks it to close without awaiting that. Awaiting
      suppresses only the cancellation: `failed` holds the operation tasks that had already
      ended with another exception, which the await re-raises before the stream is popped. */
  function CleanupOperation(s: State, id: OperationId, failed: set<nat>): (o: Outcome<State>)
    ensures o.state == s.(table := o.state.table)
    ensures Valid(s.table) ==> Valid(o.state.table)
    ensures id !in s.table.tasks ==> o.state == s && o.effects == [] && o.raised == Some(KeyError(id))
    ensures id in s.table.tasks ==>
      && o.state.table.tasks == s.table.tasks - {id}
      && |o.effects| >= 2
      && o.effects[..2] == [CancelTask(OperationTask(s.table.tasks[id])), AwaitTask(OperationTask(s.table.tasks[id]))]
    ensures id in s.table.tasks && s.table.tasks[id] in failed ==>
      && o.raised == Some(TaskFailed(s.table.tasks[id]))
      && o.state.table.subscriptions == s.table.subscriptions && |o.effects| == 2
    ensures id in s.table.tasks && s.table.tasks[id] !in failed && id !in s.table.subscriptions ==>
      o.raised == Some(KeyError(id)) && o.state.table.subscriptions == s.table.subscriptions && |o.effects| == 2
    ensures id in s.table.tasks && s.table.tasks[id] !in failed && id in s.table.subscriptions ==>
      && o.raised.None?
      && o.state.table.subscriptions == s.table.subscriptions - {id}
      && |o.effects| == 3
      && o.effects[2..] == [StreamCloseRequested(s.table.subscriptions[id])]
    ensures forall e :: e in o.effects ==> e.CancelTask? ==> e.task.OperationTask?
  {
    if id !in s.table.tasks then Outcome(s, [], Some(KeyError(id)))
    else
      var task := OperationTask(s.table.tasks[id]);
      var popped := s.table.(tasks := s.table.tasks - {id});
      var stopped := [CancelTask(task), AwaitTask(task)];
      if s.table.tasks[id] in failed then Outcome(s.(table := popped), stopped, Some(TaskFailed(s.table.tasks[id])))
      else if id !in s.table.subscriptions then Outcome(s.(table := popped), stopped, Some(KeyError(id)))
      else
        var stream := s.table.subscriptions[id];
        Outcome(s.(table := PopSubscription(popped, id)), stopped + [StreamCloseRequested(stream)], None)
  }

  /** An id `cleanup_operation` stops without raising: it has a task that did not already end
      with an exception, and it has a stream. */
  predicate StopsCleanly(t: Table, failed: set<nat>, id: OperationId) {
    id in t.tasks && t.tasks[id] !in failed && id in t.subscriptions
  }

  /** `cleanup_operation` over `ids` in order, stopping at the first exception. It finishes
      without raising exactly when the ids are distinct and each stops cleanly; then exactly
      those ids leave both maps and each one's task is cancelled. */
  function CleanupEach(s: State, ids: seq<OperationId>, failed: set<nat>): (o: Outcome<State>)
    ensures o.state == s.(table := o.state.table)
    ensures Valid(s.table) ==> Valid(o.state.table)
    ensures o.raised.None? <==>
      NoDuplicates(ids) && forall id :: id in ids ==> StopsCleanly(s.table, failed, id)
    ensures o.raised.None? ==>
      && o.state.table.tasks == s.table.tasks - Elements(ids)
      && o.state.table.subscriptions == s.table.subscriptions - Elements(ids)
      && forall id :: id in ids ==> CancelTask(OperationTask(s.table.tasks[id])) in o.effects
    ensures forall e :: e in o.effects ==> e.CancelTask? ==> e.task.OperationTask?
    decreases |ids|
  {
    if |ids| == 0 then Outcome(s, [], None)
    else
      var first := CleanupOperation(s, ids[0], failed);
      if first.raised.Some? then
        assert ids[0] in ids && !StopsCleanly(s.table, failed, ids[0]);
        first
      else
        var rest := CleanupEach(first.state, ids[1..], failed);
        var o := Outcome(rest.state, first.effects + rest.effects, rest.raised);
        assert Elements(ids) == {ids[0]} + Elements(ids[1..]);
        assert NoDuplicates(ids) <==> NoDuplicates(ids[1..]) && ids[0] !in ids[1..];
        assert forall id :: id in ids <==> id == ids[0] || id in ids[1..];
        assert first.state.table.tasks == s.table.tasks - {ids[0]};
        assert first.state.table.subscriptions == s.table.subscriptions - {ids[0]};
        o
  }

  /** `cleanup`: cancels and awaits the keep-alive task when there is one (suppressing every
      exception, so this part never raises), then runs `cleanup_operation` over a snapshot of
      the subscription keys. The init-timeout task is never cancelled. */
  function Cleanup(s: State, failed: set<nat>): (o: Outcome<State>)
    ensures s.keepAliveRunning <==> CancelTask(KeepAliveTask) in o.effects
    ensures CancelTask(InitTimeoutTask) !in o.effects
    ensures o.state.initTimeoutTask == s.initTimeoutTask && o.state.initReceived == s.initReceived
    ensures o.state == s.(table := o.state.table)
    ensures Valid(s.table) ==> Valid(o.state.table)
    ensures Valid(s.table) ==>
      (o.raised.None? <==> forall id :: id in s.table.subscriptions ==> StopsCleanly(s.table, failed, id))
    ensures Valid(s.table) && (forall id :: id in s.table.subscriptions ==> StopsCleanly(s.table, failed, id)) ==>
      && o.state.table.subscriptions == map[]
      && o.state.table.tasks == s.table.tasks - s.table.subscriptions.Keys
    ensures s.keepAliveRunning ==>
      |o.effects| >= 2 && o.effects[..2] == [CancelTask(KeepAliveTask), AwaitTask(KeepAliveTask)]
    ensures forall i :: 0 <= i < |o.effects| && o.effects[i].CancelTask? && o.effects[i].task.OperationTask? ==>
      s.keepAliveRunning ==> i >= 2
  {
    var keepAlive := if s.keepAliveRunning then [CancelTask(KeepAliveTask), AwaitTask(KeepAliveTask)] else [];
    var ops := CleanupEach(s, s.table.order, failed);
    Outcome(ops.state, keepAlive + ops.effects, ops.raised)
  }

  /** When both maps hold the same ids and no operation task already failed, cleanup raises
      nothing and empties both; a failed task makes it raise. */
  lemma CleanupEmptiesTable(s: State, failed: set<nat>)
    requires Valid(s.table) && s.table.tasks.Keys == s.table.subscriptions.Keys
    ensures (forall id :: id in s.table.tasks ==> s.table.tasks[id] !in failed) ==>
      && Cleanup(s, failed).raised.None?
      && Cleanup(s, failed).state.table.tasks == map[] && Cleanup(s, failed).state.table.subscriptions == map[]
    ensures (exists id :: id in s.table.tasks && s.table.tasks[id] in failed) ==> Cleanup(s, failed).raised.Some?
  {
  }

  /** The calls the connection can make on the adapter, in any order the scheduler picks. */
  datatype Input =
    | ConnectionInitReceived
    | InitTimerFired
    | CleanupOperationCalled(id: OperationId, failed: set<nat>)
    | CleanupCalled(failed: set<nat>)
    | WatchCalled
    | RequestCalled
    | CloseCalled(code: Option<int>, reason: Option<string>)

  function Step(s: State, input: Input): Outcome<State> {
    match input
    case ConnectionInitReceived => HandleConnectionInit(s)
    case InitTimerFired => Outcome(s, HandleInitTimeout(s), None)
    case CleanupOperationCalled(id, failed) => CleanupOperation(s, id, failed)
    case CleanupCalled(failed) => Cleanup(s, failed)
    case WatchCalled => WatchInitTimeout(s)
    case RequestCalled => HandleRequest(s)
    case CloseCalled(code, reason) => Outcome(s, Close(code, reason), None)
  }

  /** The state after the inputs in order; an exception ends only the call that raised it. */
  function Run(s: State, inputs: seq<Input>): State
    decreases |inputs|
  {
    if |inputs| == 0 then s else Run(Step(s, inputs[0]).state, inputs[1..])
  }

  /** No call sets the init flag back to false: once received, it stays received. */
  lemma {:induction false} InitReceivedNeverReset(s: State, inputs: seq<Input>)
    requires s.initReceived
    ensures Run(s, inputs).initReceived
    decreases |inputs|
  {
    if |inputs| > 0 {
      InitReceivedNeverReset(Step(s, inputs[0]).state, inputs[1..]);
    }
  }

  /** Only the init message sets the flag: without it the flag stays false. */
  lemma {:induction false} InitReceivedOnlyByInit(s: State, inputs: seq<Input>)
    requires !s.initReceived && ConnectionInitReceived !in inputs
    ensures !Run(s, inputs).initReceived
    decreases |inputs|
  {
    if |inputs| > 0 {
      assert ConnectionInitReceived !in inputs[1..];
      InitReceivedOnlyByInit(Step(s, inputs[0]).state, inputs[1..]);
    }
  }

  /** Whatever happens between the init message and the timer, the timer closes nothing. */
  lemma TimerAfterInitIsSilent(s: State, before: seq<Input>, after: seq<Input>)
    ensures HandleInitTimeout(Run(HandleConnectionInit(Run(s, before)).state, after)) == []
  {
    InitReceivedNeverReset(HandleConnectionInit(Run(s, before)).state, after);
  }

  /** A connection that never sends the init message is closed exactly once, with 4408,
      when the timer fires. */
  lemma TimerWithoutInitClosesOnce(s: State, inputs: seq<Input>)
    requires !s.initReceived && ConnectionInitReceived !in inputs
    ensures HandleInitTimeout(Run(s, inputs)) == [CloseSocket(InitTimeoutCode, Some(InitTimeoutReason))]
  {
    InitReceivedOnlyByInit(s, inputs);
  }

  /** Every call keeps the table's order in step with its subscription keys. */
  lemma {:induction false} RunPreservesValid(s: State, inputs: seq<Input>)
    requires Valid(s.table)
    ensures Valid(Run(s, inputs).table)
    decreases |inputs|
  {
    if |inputs| > 0 {
      RunPreservesValid(Step(s, inputs[0]).state, inputs[1..]);
    }
  }
}

=== FILE: handler.dfy ===
/** The request handler: decides per request whether it is a WebSocket upgrade, builds the
    matching resolver, and forwards every entry point to it. A resolver kind that does not
    implement an entry point falls back to the base behaviour: no result and no effect. */
module Handler {
  import opened Wrappers
  import opened Text
  import opened ContextInjection
  import opened Socket
  import opened HttpMessages
  import opened BaseResolver
  import opened Settings
  import WsResolver
  import HttpResolver
  import LegacyAdapter
  import TransportAdapter

  /** `_is_ws`: the Upgrade header (empty when missing), lower-cased, is `websocket`. */
  function IsWs(req: Request): (r: bool)
    ensures r <==> "upgrade" in req.headers && EqualIgnoringCase(req.headers["upgrade"], "websocket")
  {
    assert Lower("Upgrade") == "upgrade";
    var upgrade := HeaderOr(req, "Upgrade", "");
    LowerEqualIffIgnoringCase(upgrade, "websocket");
    assert Lower("websocket") == "websocket";
    Lower(upgrade) == "websocket"
  }

  /** A mixed-case Upgrade header still marks an upgrade; a missing one never does. */
  lemma IsWsExamples(req: Request)
    ensures IsWs(req.(headers := map["upgrade" := "WebSocket"]))
    ensures !IsWs(req.(headers := map[]))
    ensures !IsWs(req.(headers := map["upgrade" := "websockets"]))
  {
    assert EqualIgnoringCase("WebSocket", "websocket");
  }

  /** The two resolver kinds. Each holds the four callables; the WebSocket resolver also holds
      the adapter `open` builds (absent until then, and forever when `open` closes early). */
  datatype Resolver =
    | HttpResolverOf(callables: Callables)
    | WsResolverOf(callables: Callables, protocol: Option<WsResolver.Adapter>)

  /** `prepare` as intended: the WebSocket resolver exactly for upgrade requests, the HTTP
      resolver otherwise, holding the handler's callables. */
  function Prepare(req: Request, cb: Callables): (r: Resolver)
    ensures r.WsResolverOf? <==> IsWs(req)
    ensures r.callables == cb
    ensures r.WsResolverOf? ==> r.protocol.None?
  {
    if IsWs(req) then WsResolverOf(cb, None) else HttpResolverOf(cb)
  }

  /** `prepare` as written: the dataclass `__init__` assigns the four fields one by one, and the
      first one the chosen class cannot store raises `AttributeError`. */
  function PrepareAsWritten(req: Request, cb: Callables): (r: Result<Resolver, Exception>)
    ensures r.Success? <==> !IsWs(req)
    ensures r.Success? ==> r.value == HttpResolverOf(cb)
    ensures r.Failure? ==> r.error == AttributeError("context_method")
  {
    var cls := if IsWs(req) then WsResolverClass else HttpResolverClass;
    match FirstUnstorable(cls, InitFields)
    case Some(i) => Failure(AttributeError(InitFields[i]))
    case None => Success(if IsWs(req) then WsResolverOf(cb, None) else HttpResolverOf(cb))
  }

  /** Every upgrade request fails at `prepare` as written, where the intended `prepare` builds
      the WebSocket resolver; on every other request the two agree. */
  lemma PrepareAsWrittenRejectsUpgrades(req: Request, cb: Callables)
    ensures IsWs(req) ==> PrepareAsWritten(req, cb).Failure? && Prepare(req, cb).WsResolverOf?
    ensures !IsWs(req) ==> PrepareAsWritten(req, cb) == Success(Prepare(req, cb))
    ensures PrepareAsWritten(req.(headers := map["upgrade" := "websocket"]), cb)
            == Failure(AttributeError("context_method"))
  {
    assert EqualIgnoringCase("websocket", "websocket");
  }

  /** Where `get` goes: the transport's own WebSocket handshake, or the resolver's `get`. */
  datatype GetRoute = WebSocketHandshake | ResolverGet(events: seq<HttpEvent>)

  /** `get`: upgrade requests go to the WebSocket handshake, all others to the resolver; a
      WebSocket resolver's `get` is the base no-op. */
  function Get(cfg: HandlerConfig, resolver: Resolver, lib: HttpResolver.Library, req: Request): (r: GetRoute)
    ensures r.WebSocketHandshake? <==> IsWs(req)
    ensures !IsWs(req) && resolver.HttpResolverOf? ==>
      r == ResolverGet(HttpResolver.Get(cfg, resolver.callables, lib, req))
    ensures !IsWs(req) && resolver.WsResolverOf? ==> r == ResolverGet([])
  {
    if IsWs(req) then WebSocketHandshake
    else match resolver
      case HttpResolverOf(cb) => ResolverGet(HttpResolver.Get(cfg, cb, lib, req))
      case WsResolverOf(_, _) => ResolverGet([])
  }

  /** `post`: always the resolver's `post`, whatever the request; a WebSocket resolver's `post`
      is the base no-op. */
  function Post(resolver: Resolver, lib: HttpResolver.Library, req: Request): (events: seq<HttpEvent>)
    ensures resolver.WsResolverOf? ==> events == []
    ensures resolver.HttpResolverOf? ==> Finishes(events) == 1
    ensures resolver.HttpResolverOf? ==> events == HttpResolver.Post(resolver.callables, lib, req)
  {
    match resolver
    case HttpResolverOf(cb) => HttpResolver.Post(cb, lib, req)
    case WsResolverOf(_, _) => []
  }

  /** `select_subprotocol`: the WebSocket resolver negotiates; the HTTP resolver's base method
      accepts nothing. */
  function SelectSubprotocol(resolver: Resolver, offered: seq<string>): (r: Option<string>)
    ensures resolver.HttpResolverOf? ==> r.None?
    ensures resolver.WsResolverOf? ==> r == WsResolver.SelectSubprotocol(offered)
  {
    match resolver
    case HttpResolverOf(_) => None
    case WsResolverOf(_, _) => WsResolver.SelectSubprotocol(offered)
  }

  /** `open`: forwarded to the resolver; the HTTP resolver's base method does nothing. */
  function Open(cfg: HandlerConfig, resolver: Resolver, status: int, selected: Option<string>,
                debug: Option<bool>): (r: (Resolver, seq<Effect>))
    ensures resolver.HttpResolverOf? ==> r == (resolver, [])
    ensures resolver.WsResolverOf? ==>
      var result := WsResolver.Open(status, selected, cfg, debug);
      r.1 == result.effects && r.0 == resolver.(protocol := result.protocol)
  {
    match resolver
    case HttpResolverOf(_) => (resolver, [])
    case WsResolverOf(cb, _) =>
      var result := WsResolver.Open(status, selected, cfg, debug);
      (WsResolverOf(cb, result.protocol), result.effects)
  }

  /** `on_close`: forwarded; the HTTP resolver's base method does nothing. */
  function OnClose(resolver: Resolver): (r: Reaction)
    ensures resolver.HttpResolverOf? ==> r == Reaction([], None)
    ensures resolver.WsResolverOf? ==> r == WsResolver.OnClose(resolver.protocol)
  {
    match resolver
    case HttpResolverOf(_) => Reaction([], None)
    case WsResolverOf(_, protocol) => WsResolver.OnClose(protocol)
  }

  /** `on_message`: forwarded with the resolver's own decoder; the HTTP resolver's base method
      does nothing. */
  function OnMessage(resolver: Resolver, message: string): (r: Reaction)
    ensures resolver.HttpResolverOf? ==> r == Reaction([], None)
    ensures resolver.WsResolverOf? ==>
      r == WsResolver.OnMessage(resolver.protocol, resolver.callables.jsonDecoder, message)
  {
    match resolver
    case HttpResolverOf(_) => Reaction([], None)
    case WsResolverOf(cb, protocol) => WsResolver.OnMessage(protocol, cb.jsonDecoder, message)
  }

  /** The handler's default `get_context`. */
  function DefaultContext(): Context {
    NoneContext
  }

  /** The default context is `None`, which injection leaves as it is, under either adapter. */
  lemma DefaultContextUntouched(legacy: LegacyAdapter.State, transport: TransportAdapter.State)
    ensures LegacyAdapter.GetContext(legacy, DefaultContext()) == DefaultContext()
    ensures TransportAdapter.GetContext(transport, DefaultContext()) == DefaultContext()
  {
  }

  /** The resolver the intended `prepare` builds and the routing of `get` always agree: an
      upgrade request has a WebSocket resolver and goes to the handshake, any other request is
      answered by the HTTP resolver. */
  lemma PrepareAndGetAgree(cfg: HandlerConfig, cb: Callables, lib: HttpResolver.Library, req: Request)
    ensures IsWs(req) ==> Prepare(req, cb).WsResolverOf? && Get(cfg, Prepare(req, cb), lib, req) == WebSocketHandshake
    ensures !IsWs(req) ==> Get(cfg, Prepare(req, cb), lib, req) == ResolverGet(HttpResolver.Get(cfg, cb, lib, req))
    ensures IsWs(req) ==> PrepareAsWritten(req, cb).Failure?
    ensures !IsWs(req) ==> PrepareAsWritten(req, cb) == Success(Prepare(req, cb))
  {
  }

  /** A WebSocket connection on the HTTP resolver is answered by none of the socket entry points. */
  lemma HttpResolverIgnoresSocketEvents(cfg: HandlerConfig, cb: Callables, offered: seq<string>, status: int,
                                        selected: Option<string>, debug: Option<bool>, message: string)
    ensures SelectSubprotocol(HttpResolverOf(cb), offered).None?
    ensures Open(cfg, HttpResolverOf(cb), status, selected, debug).1 == []
    ensures OnClose(HttpResolverOf(cb)).effects == [] && OnMessage(HttpResolverOf(cb), message).effects == []
  {
  }

  /** The WebSocket resolver's `get` and `post` are the base no-ops: a non-upgrade GET reaching
      it gets no answer, and a POST on a WebSocket connection does nothing. */
  lemma WsResolverIgnoresHttp(cfg: HandlerConfig, cb: Callables, protocol: Option<WsResolver.Adapter>,
                              lib: HttpResolver.Library, req: Request)
    ensures !IsWs(req) ==> Get(cfg, WsResolverOf(cb, protocol), lib, req) == ResolverGet([])
    ensures Post(WsResolverOf(cb, protocol), lib, req) == []
  {
  }

  /** Both adapters inject the connection parameters the same way. */
  lemma AdaptersInjectAlike(legacy: LegacyAdapter.State, transport: TransportAdapter.State, provided: Context)
    requires legacy.connectionParams == transport.connectionParams
    ensures LegacyAdapter.GetContext(legacy, provided) == TransportAdapter.GetContext(transport, provided)
  {
  }
}

=== FILE: http.dfy ===
/** The HTTP side as the resolvers see it: the incoming request, the response actions
    they take, and the request handed to the executor. */
module HttpMessages {
  import opened Wrappers
  import opened Text
  import opened JsonValues
  import opened ContextInjection

  datatype UploadedFile = UploadedFile(filename: string, contentType: string, body: string)

  /** A request after the transport parsed it. Header names are stored lower-cased, since
      header lookup ignores case; `queryArguments` and `bodyArguments` hold, for each name
      present, the value the transport's single-argument lookup returns; `arguments` is the
      combined query and form argument table. */
  datatype Request = Request(
    httpMethod: Option<string>,
    headers: map<string, string>,
    arguments: map<string, seq<string>>,
    queryArguments: map<string, string>,
    bodyArguments: map<string, string>,
    body: string,
    files: map<string, seq<UploadedFile>>)

  /** `request.headers.get(name, default)` */
  function HeaderOr(req: Request, name: string, default: string): string {
    var key := Lower(name);
    if key in req.headers then req.headers[key] else default
  }

  /** Python's `value or default` on an optional string: `None` and `""` both give `default`. */
  function OrDefault(value: Option<string>, default: string): (r: string)
    ensures value.Some? && value.value != "" ==> r == value.value
    ensures value.None? || value.value == "" ==> r == default
  {
    if value.Some? && value.value != "" then value.value else default
  }

  datatype OperationKind = Query | Mutation | Subscription

  /** What the library's request parser extracts from the decoded data. */
  datatype RequestData = RequestData(query: string, variables: Option<Json>, operationName: Option<string>)

  /** One call of the executor: the request, the context and root value from the providers,
      and the allowed operation kinds (`None`: no restriction). */
  datatype ExecCall = ExecCall(
    request: RequestData,
    context: Context,
    rootValue: Json,
    allowed: Option<set<OperationKind>>)

  datatype HttpEvent =
    | SetStatus(code: int, reason: Option<string>)
    | Finish(body: Option<string>)
    | ExecutorCalled(call: ExecCall)

  /** The number of `finish` calls among `events`. */
  function Finishes(events: seq<HttpEvent>): (n: nat)
    ensures n <= |events|
    ensures n == 0 <==> forall i :: 0 <= i < |events| ==> !events[i].Finish?
  {
    if |events| == 0 then 0
    else (if events[0].Finish? then 1 else 0) + Finishes(events[1..])
  }

  lemma {:induction false} FinishesAppend(a: seq<HttpEvent>, b: seq<HttpEvent>)
    ensures Finishes(a + b) == Finishes(a) + Finishes(b)
    decreases |a|
  {
    if |a| > 0 {
      assert (a + b)[0] == a[0];
      assert (a + b)[1..] == a[1..] + b;
      FinishesAppend(a[1..], b);
    } else {
      assert a + b == b;
    }
  }
}

=== FILE: http_resolver.dfy ===
/** The HTTP resolver: when to serve GraphiQL, how GET and POST requests are decoded,
    and which status and reason each failure produces. */
module HttpResolver {
  import opened Wrappers
  import opened Text
  import opened JsonValues
  import opened ContextInjection
  import opened HttpMessages
  import opened BaseResolver
  import opened Settings

  const BadRequest: int := 400
  const NotFound: int := 404
  const ContentJson: string := "application/json"
  const ContentFormData: string := "multipart/form-data"
  const NoQueryInGetReason: string := "No GraphQL query found in the request"
  const UnparsableBodyReason: string := "Unable to parse request body as JSON."
  const NoValidQueryReason: string := "No valid query was provided for the request."

  /** The library calls the resolver makes, as functions: the request parser (`None`: no query),
      the executor (`Failure`: the operation kind is not allowed), result processing, the
      operation kinds an HTTP method permits, the reason text for a disallowed kind under a
      method, the splicing of uploaded files into the operations, and the GraphiQL page. */
  datatype Library = Library(
    parseRequestData: Json -> Option<RequestData>,
    execute: ExecCall -> Result<Json, OperationKind>,
    processResult: Json -> Json,
    fromHttp: string -> set<OperationKind>,
    invalidOperationReason: (OperationKind, string) -> string,
    replacePlaceholders: (Json, Json, map<string, seq<UploadedFile>>) -> Json,
    graphiqlHtml: string)

  /** `should_render_graphiql`: never when GraphiQL is disabled; otherwise exactly when the
      Accept header (empty when missing) contains `text/html` or the wildcard media range that
      accepts every type. */
  function ShouldRenderGraphiql(graphiql: bool, req: Request): (r: bool)
    ensures !graphiql ==> !r
    ensures graphiql ==> (r <==>
      || (exists i :: OccursAt(HeaderOr(req, "Accept", ""), "text/html", i))
      || (exists i :: OccursAt(HeaderOr(req, "Accept", ""), "*/*", i)))
  {
    var accept := HeaderOr(req, "Accept", "");
    ContainsIffOccurs(accept, "text/html");
    ContainsIffOccurs(accept, "*/*");
    if !graphiql then false
    else Contains(accept, "text/html") || Contains(accept, "*/*")
  }

  /** A request without an Accept header never gets GraphiQL. */
  lemma NoAcceptNoGraphiql(graphiql: bool, req: Request)
    requires "accept" !in req.headers
    ensures !ShouldRenderGraphiql(graphiql, req)
  {
    assert Lower("Accept") == "accept";
    EmptyContainsNothing("text/html");
    EmptyContainsNothing("*/*");
  }

  /** The query-string names `_decode_query_data` looks up. */
  const LookupNames: seq<string> := ["query", "variables", "operationName"]

  /** The pairs (name, value) for the names in `names` whose argument is present. */
  function KeepPresent(names: seq<string>, args: map<string, string>): (r: map<string, Json>)
    ensures forall k :: k in r <==> k in names && k in args
    ensures forall k :: k in r ==> r[k] == JString(args[k])
    decreases |names|
  {
    if |names| == 0 then map[]
    else
      var rest := KeepPresent(names[1..], args);
      if names[0] in args then rest[names[0] := JString(args[names[0]])] else rest
  }

  /** `_decode_query_data`: only `query`, `variables` and `operationName`, each present exactly
      when its query argument is, with its value kept (an empty value still counts as present). */
  function DecodeQueryData(req: Request): (r: map<string, Json>)
    ensures r.Keys <= {"query", "variables", "operationName"}
    ensures forall k :: k in LookupNames ==> (k in r <==> k in req.queryArguments)
    ensures forall k :: k in r ==> r[k] == JString(req.queryArguments[k])
  {
    KeepPresent(LookupNames, req.queryArguments)
  }

  /** The form field `name` of a multipart body, `{}` when missing. */
  function FormField(req: Request, name: string): string {
    if name in req.bodyArguments then req.bodyArguments[name] else "{}"
  }

  /** `_decode_request_data`; `None` means the decoder raised a JSON decoding error. Only a
      JSON or multipart request can fail; any other content type decodes to an empty object. */
  function DecodeRequestData(req: Request, decode: string -> Option<Json>, lib: Library): (r: Option<Json>)
    ensures StartsWith(HeaderOr(req, "content-type", ""), ContentJson) ==> r == decode(req.body)
    ensures (!StartsWith(HeaderOr(req, "content-type", ""), ContentJson)
             && !StartsWith(HeaderOr(req, "content-type", ""), ContentFormData)) ==>
      r == Some(JObject(map[]))
    ensures r.None? ==>
      StartsWith(HeaderOr(req, "content-type", ""), ContentJson)
      || StartsWith(HeaderOr(req, "content-type", ""), ContentFormData)
    ensures StartsWith(HeaderOr(req, "content-type", ""), ContentFormData) ==>
      (r.Some? <==> decode(FormField(req, "operations")).Some? && decode(FormField(req, "map")).Some?)
  {
    PrefixesExclusive(HeaderOr(req, "content-type", ""));
    var contentType := HeaderOr(req, "content-type", "");
    if StartsWith(contentType, ContentJson) then decode(req.body)
    else if StartsWith(contentType, ContentFormData) then
      var operations := decode(FormField(req, "operations"));
      if operations.None? then None
      else
        var filesMap := decode(FormField(req, "map"));
        if filesMap.None? then None
        else Some(lib.replacePlaceholders(operations.value, filesMap.value, req.files))
    else Some(JObject(map[]))
  }

  /** A content type with neither prefix yields an empty object, whatever the decoder, the
      body, the body arguments and the files. */
  lemma OtherContentTypeIsEmpty(req: Request, decode: string -> Option<Json>, lib: Library,
                                body: string, bodyArguments: map<string, string>, files: map<string, seq<UploadedFile>>)
    requires !StartsWith(HeaderOr(req, "content-type", ""), ContentJson)
    requires !StartsWith(HeaderOr(req, "content-type", ""), ContentFormData)
    ensures DecodeRequestData(req.(body := body, bodyArguments := bodyArguments, files := files), decode, lib)
            == Some(JObject(map[]))
  {
  }

  /** A JSON body is decoded as a whole: the body arguments and the files play no part. */
  lemma JsonBranchIgnoresForm(req: Request, decode: string -> Option<Json>, lib: Library,
                              bodyArguments: map<string, string>, files: map<string, seq<UploadedFile>>)
    requires StartsWith(HeaderOr(req, "content-type", ""), ContentJson)
    ensures DecodeRequestData(req.(bodyArguments := bodyArguments, files := files), decode, lib)
            == DecodeRequestData(req, decode, lib)
    ensures DecodeRequestData(req, decode, lib) == decode(req.body)
  {
  }

  /** A multipart request is read from its form fields and files: the raw body plays no part,
      and a form with neither field decodes `{}` twice. */
  lemma MultipartBranchIgnoresBody(req: Request, decode: string -> Option<Json>, lib: Library, body: string)
    requires StartsWith(HeaderOr(req, "content-type", ""), ContentFormData)
    ensures DecodeRequestData(req.(body := body), decode, lib) == DecodeRequestData(req, decode, lib)
    ensures "operations" !in req.bodyArguments && "map" !in req.bodyArguments && decode("{}").Some? ==>
      DecodeRequestData(req, decode, lib)
      == Some(lib.replacePlaceholders(decode("{}").value, decode("{}").value, req.files))
    ensures decode(FormField(req, "operations")).None? ==>
      DecodeRequestData(req, decode, lib).None?
  {
    PrefixesExclusive(HeaderOr(req, "content-type", ""));
  }

  /** The JSON and multipart prefixes cannot both match, so the branch order never matters. */
  lemma PrefixesExclusive(contentType: string)
    ensures !(StartsWith(contentType, ContentJson) && StartsWith(contentType, ContentFormData))
  {
    assert StartsWith(contentType, ContentJson) ==> contentType[0] == contentType[..|ContentJson|][0] == 'a';
    assert StartsWith(contentType, ContentFormData) ==> contentType[0] == contentType[..|ContentFormData|][0] == 'm';
  }

  /** What `__execute` did: its actions and the response body it returns. */
  datatype Execution = Execution(events: seq<HttpEvent>, response: Option<string>)

  /** `__execute`: the executor is called once with the providers' context and root value;
      a disallowed operation kind sets 400 with the method-specific reason and yields no body,
      otherwise the processed result is encoded as the body. */
  function Execute(cb: Callables, lib: Library, req: Request, data: RequestData,
                   allowed: Option<set<OperationKind>>): (x: Execution)
    ensures |x.events| >= 1
    ensures x.events[0] == ExecutorCalled(ExecCall(data, cb.contextMethod(), cb.rootValueMethod(), allowed))
    ensures Finishes(x.events) == 0
    ensures x.response.None? <==> lib.execute(x.events[0].call).Failure?
    ensures lib.execute(x.events[0].call).Failure? ==>
      x.events[1..] == [SetStatus(BadRequest, Some(lib.invalidOperationReason(
        lib.execute(x.events[0].call).error, OrDefault(req.httpMethod, ""))))]
    ensures lib.execute(x.events[0].call).Success? ==>
      |x.events| == 1 && x.response == Some(cb.jsonEncoder(lib.processResult(lib.execute(x.events[0].call).value)))
  {
    var call := ExecCall(data, cb.contextMethod(), cb.rootValueMethod(), allowed);
    match lib.execute(call)
    case Failure(kind) =>
      var reason := lib.invalidOperationReason(kind, OrDefault(req.httpMethod, ""));
      Execution([ExecutorCalled(call), SetStatus(BadRequest, Some(reason))], None)
    case Success(result) =>
      Execution([ExecutorCalled(call)], Some(cb.jsonEncoder(lib.processResult(result))))
  }

  /** The operation kinds a GET may run: none unless queries via GET are allowed, in which
      case those the library permits for the method (`GET` when the method is empty). */
  function GetAllowedOperations(allowQueriesViaGet: bool, lib: Library, req: Request): (r: set<OperationKind>)
    ensures !allowQueriesViaGet ==> r == {}
    ensures allowQueriesViaGet && (req.httpMethod.None? || req.httpMethod.value == "") ==> r == lib.fromHttp("GET")
    ensures allowQueriesViaGet && req.httpMethod.Some? && req.httpMethod.value != "" ==>
      r == lib.fromHttp(req.httpMethod.value)
  {
    if allowQueriesViaGet then lib.fromHttp(OrDefault(req.httpMethod, "GET")) else {}
  }

  /** How a branch of `get` ended: by `return`, or by running off its end. */
  datatype Flow = Returned(events: seq<HttpEvent>) | FellThrough(events: seq<HttpEvent>)

  /** The `elif inst.request.arguments` branch of `get`: a missing query returns 400; otherwise
      the query runs under the GET restriction and its response is finished once, and there is
      no `return` after that. */
  function AnswerQuery(cfg: HandlerConfig, cb: Callables, lib: Library, req: Request): (r: Flow)
    ensures lib.parseRequestData(JObject(DecodeQueryData(req))).None? ==>
      r == Returned([SetStatus(BadRequest, Some(NoQueryInGetReason)), Finish(None)])
    ensures lib.parseRequestData(JObject(DecodeQueryData(req))).Some? ==>
      var data := lib.parseRequestData(JObject(DecodeQueryData(req))).value;
      var allowed := Some(GetAllowedOperations(cfg.allowQueriesViaGet, lib, req));
      && r.FellThrough? && |r.events| >= 2 && Finishes(r.events) == 1
      && r.events[0] == ExecutorCalled(ExecCall(data, cb.contextMethod(), cb.rootValueMethod(), allowed))
      && r.events[|r.events| - 1] == Finish(Execute(cb, lib, req, data, allowed).response)
  {
    match lib.parseRequestData(JObject(DecodeQueryData(req)))
    case None => Returned([SetStatus(BadRequest, Some(NoQueryInGetReason)), Finish(None)])
    case Some(data) =>
      var x := Execute(cb, lib, req, data, Some(GetAllowedOperations(cfg.allowQueriesViaGet, lib, req)));
      FinishesAppend(x.events, [Finish(x.response)]);
      FellThrough(x.events + [Finish(x.response)])
  }

  /** `get`: GraphiQL first, then the query arguments; every path that is not returned from
      ends by setting 404 and finishing, and every path ends with a finish. */
  function Get(cfg: HandlerConfig, cb: Callables, lib: Library, req: Request): (events: seq<HttpEvent>)
    ensures ShouldRenderGraphiql(cfg.graphiql, req) ==> events == [Finish(Some(lib.graphiqlHtml))]
    ensures !ShouldRenderGraphiql(cfg.graphiql, req) && |req.arguments| == 0 ==>
      events == [SetStatus(NotFound, None), Finish(None)]
    ensures !ShouldRenderGraphiql(cfg.graphiql, req) && |req.arguments| > 0 ==>
      match AnswerQuery(cfg, cb, lib, req)
      case Returned(answered) => events == answered
      case FellThrough(answered) => events == answered + [SetStatus(NotFound, None), Finish(None)]
    ensures |events| > 0 && events[|events| - 1].Finish?
  {
    if ShouldRenderGraphiql(cfg.graphiql, req) then [Finish(Some(lib.graphiqlHtml))]
    else
      var flow := if |req.arguments| > 0 then AnswerQuery(cfg, cb, lib, req) else FellThrough([]);
      match flow
      case Returned(events) => events
      case FellThrough(events) => events + [SetStatus(NotFound, None), Finish(None)]
  }

  /** GraphiQL is decided before the arguments are looked at. */
  lemma GetGraphiqlFirst(cfg: HandlerConfig, cb: Callables, lib: Library, req: Request)
    requires ShouldRenderGraphiql(cfg.graphiql, req)
    ensures Get(cfg, cb, lib, req) == [Finish(Some(lib.graphiqlHtml))]
  {
  }

  /** Without GraphiQL and without arguments a GET is answered 404. */
  lemma GetWithoutArgumentsIsNotFound(cfg: HandlerConfig, cb: Callables, lib: Library, req: Request)
    requires !ShouldRenderGraphiql(cfg.graphiql, req) && |req.arguments| == 0
    ensures Get(cfg, cb, lib, req) == [SetStatus(NotFound, None), Finish(None)]
  {
  }

  /** Arguments without a query give 400 and nothing is executed. */
  lemma GetMissingQuery(cfg: HandlerConfig, cb: Callables, lib: Library, req: Request)
    requires !ShouldRenderGraphiql(cfg.graphiql, req) && |req.arguments| > 0
    requires lib.parseRequestData(JObject(DecodeQueryData(req))).None?
    ensures Get(cfg, cb, lib, req) == [SetStatus(BadRequest, Some(NoQueryInGetReason)), Finish(None)]
  {
  }

  /** An executed GET query finishes with its response and then, falling through, sets 404
      and finishes a second time; the executor saw the GET operation restriction. */
  lemma GetQueryFallsThrough(cfg: HandlerConfig, cb: Callables, lib: Library, req: Request)
    requires !ShouldRenderGraphiql(cfg.graphiql, req) && |req.arguments| > 0
    requires lib.parseRequestData(JObject(DecodeQueryData(req))).Some?
    ensures var events := Get(cfg, cb, lib, req);
      && |events| >= 4
      && events[0].ExecutorCalled?
      && events[0].call.allowed == Some(GetAllowedOperations(cfg.allowQueriesViaGet, lib, req))
      && events[|events| - 2..] == [SetStatus(NotFound, None), Finish(None)]
      && Finishes(events) == 2
    ensures var data := lib.parseRequestData(JObject(DecodeQueryData(req))).value;
      var x := Execute(cb, lib, req, data, Some(GetAllowedOperations(cfg.allowQueriesViaGet, lib, req)));
      var events := Get(cfg, cb, lib, req);
      && |events| >= 4
      && events[0].call.request == data
      && events[|events| - 3] == Finish(x.response)
      && events == x.events + [Finish(x.response), SetStatus(NotFound, None), Finish(None)]
  {
    var data := lib.parseRequestData(JObject(DecodeQueryData(req))).value;
    var x := Execute(cb, lib, req, data, Some(GetAllowedOperations(cfg.allowQueriesViaGet, lib, req)));
    var events := x.events + [Finish(x.response)] + [SetStatus(NotFound, None), Finish(None)];
    assert Get(cfg, cb, lib, req) == events;
    FinishesAppend(x.events, [Finish(x.response)]);
    FinishesAppend(x.events + [Finish(x.response)], [SetStatus(NotFound, None), Finish(None)]);
  }

  /** A successful GET query sets no status before its first finish, which carries the encoded,
      processed result; the fall-through then sets 404 and finishes again. */
  lemma GetSuccess(cfg: HandlerConfig, cb: Callables, lib: Library, req: Request)
    requires !ShouldRenderGraphiql(cfg.graphiql, req) && |req.arguments| > 0
    requires lib.parseRequestData(JObject(DecodeQueryData(req))).Some?
    requires lib.execute(ExecCall(lib.parseRequestData(JObject(DecodeQueryData(req))).value,
      cb.contextMethod(), cb.rootValueMethod(), Some(GetAllowedOperations(cfg.allowQueriesViaGet, lib, req)))).Success?
    ensures var events := Get(cfg, cb, lib, req);
      var result := lib.execute(ExecCall(lib.parseRequestData(JObject(DecodeQueryData(req))).value,
        cb.contextMethod(), cb.rootValueMethod(), Some(GetAllowedOperations(cfg.allowQueriesViaGet, lib, req)))).value;
      && |events| == 4
      && events[1..] == [Finish(Some(cb.jsonEncoder(lib.processResult(result)))),
                         SetStatus(NotFound, None), Finish(None)]
  {
  }

  /** A disallowed operation kind in a GET sets 400 with the library's reason for the method and
      finishes with no body; the fall-through then sets 404 and finishes again. */
  lemma GetDisallowedOperation(cfg: HandlerConfig, cb: Callables, lib: Library, req: Request)
    requires !ShouldRenderGraphiql(cfg.graphiql, req) && |req.arguments| > 0
    requires lib.parseRequestData(JObject(DecodeQueryData(req))).Some?
    requires lib.execute(ExecCall(lib.parseRequestData(JObject(DecodeQueryData(req))).value,
      cb.contextMethod(), cb.rootValueMethod(), Some(GetAllowedOperations(cfg.allowQueriesViaGet, lib, req)))).Failure?
    ensures var events := Get(cfg, cb, lib, req);
      var kind := lib.execute(ExecCall(lib.parseRequestData(JObject(DecodeQueryData(req))).value,
        cb.contextMethod(), cb.rootValueMethod(), Some(GetAllowedOperations(cfg.allowQueriesViaGet, lib, req)))).error;
      events[1..] == [SetStatus(BadRequest, Some(lib.invalidOperationReason(kind, OrDefault(req.httpMethod, "")))),
                      Finish(None), SetStatus(NotFound, None), Finish(None)]
  {
  }

  /** With queries via GET disabled, the executor is told that no operation kind is allowed. */
  lemma GetWithoutQueriesAllowsNothing(cfg: HandlerConfig, cb: Callables, lib: Library, req: Request)
    requires !cfg.allowQueriesViaGet
    ensures forall e :: e in Get(cfg, cb, lib, req) && e.ExecutorCalled? ==> e.call.allowed == Some({})
  {
  }

  /** `post`: an undecodable body gives 400 before parsing, a missing query gives 400, and
      otherwise the query runs with no operation restriction and its response is finished. */
  function Post(cb: Callables, lib: Library, req: Request): (events: seq<HttpEvent>)
    ensures DecodeRequestData(req, cb.jsonDecoder, lib).None? ==>
      events == [SetStatus(BadRequest, Some(UnparsableBodyReason)), Finish(None)]
    ensures (DecodeRequestData(req, cb.jsonDecoder, lib).Some?
      && lib.parseRequestData(DecodeRequestData(req, cb.jsonDecoder, lib).value).None?) ==>
      events == [SetStatus(BadRequest, Some(NoValidQueryReason)), Finish(None)]
    ensures Finishes(events) == 1 && events[|events| - 1].Finish?
    ensures forall e :: e in events && e.ExecutorCalled? ==> e.call.allowed.None?
  {
    match DecodeRequestData(req, cb.jsonDecoder, lib)
    case None => [SetStatus(BadRequest, Some(UnparsableBodyReason)), Finish(None)]
    case Some(decoded) =>
      match lib.parseRequestData(decoded)
      case None => [SetStatus(BadRequest, Some(NoValidQueryReason)), Finish(None)]
      case Some(data) =>
        var x := Execute(cb, lib, req, data, None);
        FinishesAppend(x.events, [Finish(x.response)]);
        x.events + [Finish(x.response)]
  }

  /** A body that fails to decode is never handed to the request parser. */
  lemma PostDecodeErrorSkipsParser(cb: Callables, lib: Library, req: Request, parser: Json -> Option<RequestData>)
    requires DecodeRequestData(req, cb.jsonDecoder, lib).None?
    ensures Post(cb, lib, req) == Post(cb, lib.(parseRequestData := parser), req)
  {
  }

  /** A successful POST sets no status (the response stays 200) and finishes once with the
      encoded, processed result. */
  lemma PostSuccess(cb: Callables, lib: Library, req: Request)
    requires DecodeRequestData(req, cb.jsonDecoder, lib).Some?
    requires lib.parseRequestData(DecodeRequestData(req, cb.jsonDecoder, lib).value).Some?
    requires lib.execute(ExecCall(lib.parseRequestData(DecodeRequestData(req, cb.jsonDecoder, lib).value).value,
      cb.contextMethod(), cb.rootValueMethod(), None)).Success?
    ensures var events := Post(cb, lib, req);
      var result := lib.execute(ExecCall(lib.parseRequestData(DecodeRequestData(req, cb.jsonDecoder, lib).value).value,
        cb.contextMethod(), cb.rootValueMethod(), None)).value;
      && (forall e :: e in events ==> !e.SetStatus?)
      && events[|events| - 1] == Finish(Some(cb.jsonEncoder(lib.processResult(result))))
  {
  }

  /** A disallowed operation kind in a POST sets 400 with the library's reason and finishes
      with no body. */
  lemma PostDisallowedOperation(cb: Callables, lib: Library, req: Request)
    requires DecodeRequestData(req, cb.jsonDecoder, lib).Some?
    requires lib.parseRequestData(DecodeRequestData(req, cb.jsonDecoder, lib).value).Some?
    requires lib.execute(ExecCall(lib.parseRequestData(DecodeRequestData(req, cb.jsonDecoder, lib).value).value,
      cb.contextMethod(), cb.rootValueMethod(), None)).Failure?
    ensures var events := Post(cb, lib, req);
      var kind := lib.execute(ExecCall(lib.parseRequestData(DecodeRequestData(req, cb.jsonDecoder, lib).value).value,
        cb.contextMethod(), cb.rootValueMethod(), None)).error;
      events[1..] == [SetStatus(BadRequest, Some(lib.invalidOperationReason(kind, OrDefault(req.httpMethod, "")))),
                      Finish(None)]
  {
  }
}

=== FILE: json.dfy ===
/** The values that cross the pluggable JSON encoder and decoder. */
module JsonValues {

  /** A decoded JSON document; numbers are integers only. */
  datatype Json =
    | JNull
    | JBool(b: bool)
    | JNumber(n: int)
    | JString(s: string)
    | JArray(items: seq<Json>)
    | JObject(fields: map<string, Json>)
}

=== FILE: operations.dfy ===
/** The per-connection operation table: two dictionaries keyed by operation id, one
    holding each operation's runner task and one its result stream. Python dictionaries
    iterate in insertion order, so the table also keeps the subscription keys in that order. */
module Operations {
  import opened Socket

  datatype Table = Table(
    tasks: map<OperationId, nat>,
    subscriptions: map<OperationId, nat>,
    order: seq<OperationId>)

  predicate NoDuplicates(ids: seq<OperationId>) {
    forall i, j :: 0 <= i < j < |ids| ==> ids[i] != ids[j]
  }

  function Elements(ids: seq<OperationId>): set<OperationId> {
    set id | id in ids
  }

  /** The elements of a non-empty sequence: its head and the elements of its tail. */
  lemma ElementsHeadTail(ids: seq<OperationId>)
    requires |ids| > 0
    ensures Elements(ids) == {ids[0]} + Elements(ids[1..])
  {
    assert ids == [ids[0]] + ids[1..];
  }

  /** `order` lists every subscription key exactly once, as `list(subscriptions.keys())` would. */
  predicate Valid(t: Table) {
    NoDuplicates(t.order) && Elements(t.order) == t.subscriptions.Keys
  }

  function EmptyTable(): (t: Table)
    ensures Valid(t) && t.tasks == map[] && t.subscriptions == map[]
  {
    Table(map[], map[], [])
  }

  /** `ids` with every occurrence of `id` removed, the rest in the same order. */
  function Without(ids: seq<OperationId>, id: OperationId): (r: seq<OperationId>)
    ensures Elements(r) == Elements(ids) - {id}
    ensures NoDuplicates(ids) ==> NoDuplicates(r)
    ensures |r| <= |ids|
  {
    if |ids| == 0 then []
    else if ids[0] == id then Without(ids[1..], id)
    else
      var rest := Without(ids[1..], id);
      var r := [ids[0]] + rest;
      assert Elements(ids) == {ids[0]} + Elements(ids[1..]);
      assert Elements(r) == {ids[0]} + Elements(rest);
      assert NoDuplicates(ids) ==> ids[0] !in Elements(ids[1..]) && ids[0] !in rest;
      assert forall j :: 0 < j < |r| ==> r[j] == rest[j - 1];
      r
  }

  /** `subscriptions.pop(id)` on a table that has the key: the entry leaves the map and the order. */
  function PopSubscription(t: Table, id: OperationId): (r: Table)
    requires id in t.subscriptions
    ensures r.tasks == t.tasks
    ensures r.subscriptions == t.subscriptions - {id}
    ensures Valid(t) ==> Valid(r)
  {
    Table(t.tasks, t.subscriptions - {id}, Without(t.order, id))
  }
}

=== FILE: settings.dfy ===
/** The handler's construction-time configuration and the sub-protocol names. */
module Settings {
  import opened Wrappers

  const GraphqlTransportWs: string := "graphql-transport-ws"
  const GraphqlWs: string := "graphql-ws"

  datatype HandlerConfig = HandlerConfig(
    graphiql: bool,
    allowQueriesViaGet: bool,
    wsKeepAlive: bool,
    wsKeepAliveInterval: real,
    wsSubscriptionProtocols: seq<string>,
    /** `ws_connection_init_wait_timeout` in seconds. */
    wsConnectionInitWaitSeconds: real)

  /** The keyword arguments of `initialize`; `None` means the keyword was not passed. */
  datatype Options = Options(
    graphiql: Option<bool>,
    allowQueriesViaGet: Option<bool>,
    wsKeepAlive: Option<bool>,
    wsKeepAliveInterval: Option<real>,
    wsSubscriptionProtocols: Option<seq<string>>,
    wsConnectionInitWaitSeconds: Option<real>)

  /** `initialize`: every passed keyword is stored unchanged; an omitted one takes its default
      (GraphiQL on, queries via GET allowed, no keep-alive with a one-second interval, both
      sub-protocols with the newer one first, a one-minute init wait). */
  function Initialize(o: Options): (c: HandlerConfig)
    ensures o.graphiql.Some? ==> c.graphiql == o.graphiql.value
    ensures o.allowQueriesViaGet.Some? ==> c.allowQueriesViaGet == o.allowQueriesViaGet.value
    ensures o.wsKeepAlive.Some? ==> c.wsKeepAlive == o.wsKeepAlive.value
    ensures o.wsKeepAliveInterval.Some? ==> c.wsKeepAliveInterval == o.wsKeepAliveInterval.value
    ensures o.wsSubscriptionProtocols.Some? ==> c.wsSubscriptionProtocols == o.wsSubscriptionProtocols.value
    ensures o.wsConnectionInitWaitSeconds.Some? ==> c.wsConnectionInitWaitSeconds == o.wsConnectionInitWaitSeconds.value
    ensures o.graphiql.None? ==> c.graphiql
    ensures o.allowQueriesViaGet.None? ==> c.allowQueriesViaGet
    ensures o.wsKeepAlive.None? ==> !c.wsKeepAlive
    ensures o.wsKeepAliveInterval.None? ==> c.wsKeepAliveInterval == 1.0
    ensures o.wsSubscriptionProtocols.None? ==> c.wsSubscriptionProtocols == [GraphqlTransportWs, GraphqlWs]
    ensures o.wsConnectionInitWaitSeconds.None? ==> c.wsConnectionInitWaitSeconds == 60.0
  {
    HandlerConfig(
      o.graphiql.GetOr(true),
      o.allowQueriesViaGet.GetOr(true),
      o.wsKeepAlive.GetOr(false),
      o.wsKeepAliveInterval.GetOr(1.0),
      o.wsSubscriptionProtocols.GetOr([GraphqlTransportWs, GraphqlWs]),
      o.wsConnectionInitWaitSeconds.GetOr(60.0))
  }
}

=== FILE: socket.dfy ===
/** What a WebSocket connection does to the outside world, recorded as effects:
    transport calls, and the creation, cancellation and awaiting of background tasks. */
module Socket {
  import opened Wrappers
  import opened JsonValues

  /** Operation ids are client-chosen strings. */
  type OperationId = string

  /** The background tasks of one connection: the runner of one operation (identified
      by a reference), the keep-alive pinger, the init-timeout watcher, and the
      cleanup job scheduled when the transport closes. */
  datatype Task =
    | OperationTask(ref: nat)
    | KeepAliveTask
    | InitTimeoutTask
    | CleanupTask

  datatype Effect =
    | CloseSocket(code: int, reason: Option<string>)
    | StartTask(task: Task)
    | CancelTask(task: Task)
    | AwaitTask(task: Task)
    /** `aclose()` called on a result stream without awaiting it: a request, not a guarantee. */
    | StreamCloseRequested(stream: nat)
    /** A decoded client message handed to the protocol handler. */
    | MessageDispatched(message: Json)

  /** The Python exceptions the modelled code lets escape. */
  datatype Exception =
    | KeyError(key: OperationId)
    | AttributeError(name: string)
    | JsonDecodeError
    /** The exception an operation task had already ended with, re-raised when it is awaited. */
    | TaskFailed(task: nat)

  /** A step of a stateful component: the new state, the effects in order, and the
      exception that ended the step early, if any. */
  datatype Outcome<S> = Outcome(state: S, effects: seq<Effect>, raised: Option<Exception>)

  /** A step of a stateless forwarder: the effects, and the exception raised, if any. */
  datatype Reaction = Reaction(effects: seq<Effect>, raised: Option<Exception>)

  /** The number of times `e` occurs in `effects`. */
  function Count(effects: seq<Effect>, e: Effect): (n: nat)
    ensures n <= |effects|
    ensures n == 0 <==> e !in effects
  {
    if |effects| == 0 then 0
    else (if effects[0] == e then 1 else 0) + Count(effects[1..], e)
  }
}

=== FILE: text.dfy ===
/** String helpers mirroring the few `str` operations the adapter relies on. */
module Text {

  /** Python's `str.lower()` restricted to ASCII: upper-case letters move to lower case. */
  function LowerChar(c: char): char {
    if 'A' <= c <= 'Z' then (c as int + 32) as char else c
  }

  /** Python's `str.lower()` on ASCII text, character by character. */
  function Lower(s: string): string {
    seq(|s|, i requires 0 <= i < |s| => LowerChar(s[i]))
  }

  /** Two strings that differ at most in the case of ASCII letters. */
  predicate EqualIgnoringCase(a: string, b: string) {
    |a| == |b| && forall i :: 0 <= i < |a| ==> LowerChar(a[i]) == LowerChar(b[i])
  }

  /** `s.startswith(prefix)` */
  predicate StartsWith(s: string, prefix: string) {
    |prefix| <= |s| && s[..|prefix|] == prefix
  }

  /** `pattern in s` for strings, computed by scanning every start position. */
  predicate Contains(s: string, pattern: string)
    decreases |s|
  {
    StartsWith(s, pattern) || (|s| > 0 && Contains(s[1..], pattern))
  }

  /** The textbook definition of substring occurrence: some window of `s` equals `pattern`. */
  ghost predicate OccursAt(s: string, pattern: string, i: int) {
    0 <= i && i + |pattern| <= |s| && s[i..i + |pattern|] == pattern
  }

  /** The scanning `Contains` finds exactly the occurrences the window definition describes. */
  lemma {:induction false} ContainsIffOccurs(s: string, pattern: string)
    ensures Contains(s, pattern) <==> exists i :: OccursAt(s, pattern, i)
    decreases |s|
  {
    if StartsWith(s, pattern) {
      assert OccursAt(s, pattern, 0);
    } else if |s| == 0 {
    } else {
      ContainsIffOccurs(s[1..], pattern);
      if Contains(s[1..], pattern) {
        var j :| OccursAt(s[1..], pattern, j);
        assert s[j + 1..j + 1 + |pattern|] == s[1..][j..j + |pattern|];
        assert OccursAt(s, pattern, j + 1);
      }
      if i :| OccursAt(s, pattern, i) {
        assert s[0..|pattern|] == s[..|pattern|];
        assert i != 0;
        assert s[1..][i - 1..i - 1 + |pattern|] == s[i..i + |pattern|];
        assert OccursAt(s[1..], pattern, i - 1);
      }
    }
  }

  /** The empty string contains no non-empty pattern. */
  lemma EmptyContainsNothing(pattern: string)
    requires |pattern| > 0
    ensures !Contains("", pattern)
  {
  }

  /** Lower-casing compares two strings ignoring ASCII case: equal lower-cased forms mean the
      strings match case-insensitively, and back. */
  lemma {:induction false} LowerEqualIffIgnoringCase(a: string, b: string)
    ensures Lower(a) == Lower(b) <==> EqualIgnoringCase(a, b)
  {
    if Lower(a) == Lower(b) {
      assert |a| == |Lower(a)|;
      forall i | 0 <= i < |a|
        ensures LowerChar(a[i]) == LowerChar(b[i])
      {
        assert Lower(a)[i] == Lower(b)[i];
      }
    }
    if EqualIgnoringCase(a, b) {
      assert forall i :: 0 <= i < |a| ==> Lower(a)[i] == Lower(b)[i];
    }
  }
}

=== FILE: wrappers.dfy ===
/** Option and Result, the failure-carrying datatypes used throughout the model. */
module Wrappers {

  /** A value that may be absent; models Python's `Optional[T]` with `None`. */
  datatype Option<+T> = None | Some(value: T) {

    /** The value, or `default` when absent. */
    function GetOr(default: T): T {
      match this
      case Some(v) => v
      case None => default
    }
  }

  /** The outcome of a call that can raise: a value, or the exception raised. */
  datatype Result<+R, +E> = Success(value: R) | Failure(error: E)
}

=== FILE: ws_resolver.dfy ===
/** The WebSocket resolver: sub-protocol negotiation, the close-code decisions of `open`,
    the choice of adapter by negotiated name, and forwarding of messages and close. */
module WsResolver {
  import opened Wrappers
  import opened JsonValues
  import opened Socket
  import opened Settings
  import LegacyAdapter
  import TransportAdapter

  const InternalErrorCode: int := 4500
  const InternalErrorReason: string := "Internal server error."
  const BadRequestCode: int := 4400
  const BadRequestReason: string := "Bad request."
  const NotAcceptableCode: int := 4406
  const NotAcceptableReason: string := "Subprotocol not acceptable."

  /** The adapter governing one connection: exactly one of the two protocol variants. */
  datatype Adapter =
    | Legacy(legacy: LegacyAdapter.State)
    | Transport(transport: TransportAdapter.State)

  /** `select_subprotocol`: the newer protocol whenever it is offered, else the legacy one when
      offered, else nothing. Only membership matters, not the client's order. */
  function SelectSubprotocol(offered: seq<string>): (r: Option<string>)
    ensures GraphqlTransportWs in offered ==> r == Some(GraphqlTransportWs)
    ensures r == Some(GraphqlWs) <==> GraphqlTransportWs !in offered && GraphqlWs in offered
    ensures r.None? <==> GraphqlTransportWs !in offered && GraphqlWs !in offered
    ensures r.Some? ==> r.value in offered
  {
    if GraphqlTransportWs in offered then Some(GraphqlTransportWs)
    else if GraphqlWs in offered then Some(GraphqlWs)
    else None
  }

  /** Two offers naming the same protocols, in any order or multiplicity, negotiate the same. */
  lemma SelectionIgnoresOrder(a: seq<string>, b: seq<string>)
    requires forall p :: p in a <==> p in b
    ensures SelectSubprotocol(a) == SelectSubprotocol(b)
  {
  }

  /** The offers `[]`, `[graphql-ws]`, `[graphql-transport-ws]` and both in legacy-first order
      negotiate nothing, legacy, newer and newer. */
  lemma SelectionExamples()
    ensures SelectSubprotocol([]) == None
    ensures SelectSubprotocol([GraphqlWs]) == Some(GraphqlWs)
    ensures SelectSubprotocol([GraphqlTransportWs]) == Some(GraphqlTransportWs)
    ensures SelectSubprotocol([GraphqlWs, GraphqlTransportWs]) == Some(GraphqlTransportWs)
  {
  }

  /** The adapter class registered for a negotiated name, if any. */
  function AdapterFor(name: string, cfg: HandlerConfig, debug: bool): (r: Option<Adapter>)
    ensures r.Some? <==> name == GraphqlTransportWs || name == GraphqlWs
    ensures name == GraphqlTransportWs ==>
      && r.Some? && r.value.Transport?
      && r.value.transport
         == TransportAdapter.New(debug, cfg.wsConnectionInitWaitSeconds, cfg.wsKeepAlive, cfg.wsKeepAliveInterval)
    ensures name == GraphqlWs ==>
      && r.Some? && r.value.Legacy?
      && r.value.legacy
         == LegacyAdapter.New(debug, cfg.wsConnectionInitWaitSeconds, cfg.wsKeepAlive, cfg.wsKeepAliveInterval)
  {
    if name == GraphqlTransportWs then
      Some(Transport(
        TransportAdapter.New(debug, cfg.wsConnectionInitWaitSeconds, cfg.wsKeepAlive, cfg.wsKeepAliveInterval)))
    else if name == GraphqlWs then
      Some(Legacy(
        LegacyAdapter.New(debug, cfg.wsConnectionInitWaitSeconds, cfg.wsKeepAlive, cfg.wsKeepAliveInterval)))
    else None
  }

  /** `watch_pre_init_connection_timeout` on whichever adapter was built. */
  function Watch(a: Adapter): (Adapter, seq<Effect>) {
    match a
    case Legacy(s) =>
      var o := LegacyAdapter.WatchInitTimeout(s);
      (Legacy(o.state), o.effects)
    case Transport(s) =>
      var o := TransportAdapter.WatchInitTimeout(s);
      (Transport(o.state), o.effects)
  }

  /** What `open` leaves behind: the adapter it built, if any, and the effects. */
  datatype Opened = Opened(protocol: Option<Adapter>, effects: seq<Effect>)

  /** `open`: a failed handshake closes with 4500, else no negotiated name closes with 4400,
      else an unknown name closes with 4406; otherwise the adapter for the name is built and its
      init-timeout watcher armed once. `debug` is the application's debug setting, if set. */
  function Open(status: int, selected: Option<string>, cfg: HandlerConfig, debug: Option<bool>): (r: Opened)
    ensures status >= 400 ==> r == Opened(None, [CloseSocket(InternalErrorCode, Some(InternalErrorReason))])
    ensures status < 400 && selected.None? ==> r == Opened(None, [CloseSocket(BadRequestCode, Some(BadRequestReason))])
    ensures r.effects == [CloseSocket(NotAcceptableCode, Some(NotAcceptableReason))] <==>
      status < 400 && selected.Some? && selected.value != GraphqlTransportWs && selected.value != GraphqlWs
    ensures r.protocol.Some? <==>
      status < 400 && selected.Some? && (selected.value == GraphqlTransportWs || selected.value == GraphqlWs)
    ensures r.protocol.Some? ==>
      && (r.protocol.value.Transport? <==> selected.value == GraphqlTransportWs)
      && r.effects == [StartTask(InitTimeoutTask)]
    ensures r.protocol.Some? && r.protocol.value.Legacy? ==>
      r.protocol.value.legacy
      == LegacyAdapter.New(debug.GetOr(false), cfg.wsConnectionInitWaitSeconds,
                           cfg.wsKeepAlive, cfg.wsKeepAliveInterval)
           .(initTimeoutTask := Some(InitTimeoutTask))
    ensures r.protocol.Some? && r.protocol.value.Transport? ==>
      r.protocol.value.transport
      == TransportAdapter.New(debug.GetOr(false), cfg.wsConnectionInitWaitSeconds,
                              cfg.wsKeepAlive, cfg.wsKeepAliveInterval)
           .(initTimeoutTask := Some(InitTimeoutTask))
  {
    if status >= 400 then Opened(None, [CloseSocket(InternalErrorCode, Some(InternalErrorReason))])
    else if selected.None? then Opened(None, [CloseSocket(BadRequestCode, Some(BadRequestReason))])
    else match AdapterFor(selected.value, cfg, debug.GetOr(false))
      case None => Opened(None, [CloseSocket(NotAcceptableCode, Some(NotAcceptableReason))])
      case Some(adapter) =>
        var (armed, effects) := Watch(adapter);
        Opened(Some(armed), effects)
  }

  /** A failed handshake decides `open` before the negotiated name is looked at. */
  lemma FailedHandshakeIgnoresSubprotocol(status: int, a: Option<string>, b: Option<string>,
                                          cfg: HandlerConfig, debug: Option<bool>)
    requires status >= 400
    ensures Open(status, a, cfg, debug) == Open(status, b, cfg, debug)
  {
  }

  /** No name the negotiation picks can reach the 4406 branch. */
  lemma NegotiatedNameIsAcceptable(status: int, offered: seq<string>, cfg: HandlerConfig, debug: Option<bool>)
    ensures CloseSocket(NotAcceptableCode, Some(NotAcceptableReason))
            !in Open(status, SelectSubprotocol(offered), cfg, debug).effects
  {
  }

  /** The configured protocol tuple plays no part in opening a connection. */
  lemma ProtocolTupleNeverConsulted(status: int, selected: Option<string>, cfg: HandlerConfig,
                                    protocols: seq<string>, debug: Option<bool>)
    ensures Open(status, selected, cfg, debug)
            == Open(status, selected, cfg.(wsSubscriptionProtocols := protocols), debug)
  {
  }

  /** A successful `open` starts the init-timeout watcher exactly once and the adapter remembers it. */
  lemma OpenArmsWatcherOnce(status: int, selected: Option<string>, cfg: HandlerConfig, debug: Option<bool>)
    requires Open(status, selected, cfg, debug).protocol.Some?
    ensures Count(Open(status, selected, cfg, debug).effects, StartTask(InitTimeoutTask)) == 1
    ensures match Open(status, selected, cfg, debug).protocol.value
      case Legacy(s) => s.initTimeoutTask == Some(InitTimeoutTask)
      case Transport(s) => s.initTimeoutTask == Some(InitTimeoutTask)
  {
  }

  /** The name of the private `__protocol` slot that `open` fills only on success. */
  const ProtocolSlot: string := "_GQLWsResolver__protocol"

  /** `on_message`: the message is decoded once (a decoding error escapes) and the decoded value
      handed once to the adapter's message handler; with no adapter, reading the slot raises. */
  function OnMessage(protocol: Option<Adapter>, decode: string -> Option<Json>, message: string): (r: Reaction)
    ensures decode(message).None? ==> r == Reaction([], Some(JsonDecodeError))
    ensures decode(message).Some? && protocol.None? ==> r == Reaction([], Some(AttributeError(ProtocolSlot)))
    ensures decode(message).Some? && protocol.Some? ==>
      r.raised.None? && r.effects == [MessageDispatched(decode(message).value)]
  {
    match decode(message)
    case None => Reaction([], Some(JsonDecodeError))
    case Some(parsed) =>
      if protocol.None? then Reaction([], Some(AttributeError(ProtocolSlot)))
      else Reaction([MessageDispatched(parsed)], None)
  }

  /** `on_close`: the adapter's cleanup is scheduled as a background task and not awaited. */
  function OnClose(protocol: Option<Adapter>): (r: Reaction)
    ensures protocol.Some? ==> r.effects == [StartTask(CleanupTask)] && r.raised.None?
    ensures AwaitTask(CleanupTask) !in r.effects
    ensures protocol.None? ==> r == Reaction([], Some(AttributeError(ProtocolSlot)))
  {
    if protocol.None? then Reaction([], Some(AttributeError(ProtocolSlot)))
    else Reaction([StartTask(CleanupTask)], None)
  }
}
